=== FILE: README.md ===
# BookSearch reconciliation core in Dafny

BookSearch keeps a list of search terms. For each term it periodically
fetches the term's listing from binsearch.info and compares it with the rows
it stored for that term before. Listing rows not yet stored are inserted and
reported as the term's *delta*. Stored rows that are no longer listed are
deleted. Two rows are the same when their (Subject, Poster, ItemGroup) key
agrees; ItemIndex and Age play no part in the comparison.

This project models that core:

- `Records` (records.dfy): listing rows (`RemoteRow`), FoundList rows
  (`FoundItem`), SearchList rows (`SearchTerm`) and the identity `Key`.
- `PyStr` (pystr.dfy): the Python string builtins the core relies on.
  `str.isspace` covers the full Unicode whitespace set. The module also has
  `strip()`, `split()`, `'+'.join` and `split('+')`.
- `Database` (database.dfy): the SQLite record store as a class
  `RecordStore`. It holds both tables as sequences, plus the next row id of
  each table. Every `db_*` operation is a method or function on it. WHERE
  clauses are the `Cond` datatype, evaluated by `Filter`. With `keep` true
  `Filter` is a SELECT, with `keep` false it is what a DELETE leaves behind.
- `Query` (query.dfy): `get_url`, the listing URL of a term.
- `Reconciler` (reconcile.dfy): the pass of `get_url_data` from line 109 on.
  It has the two loops (`CollectStale`, `InsertUnmatched`) and the
  specification functions `Stale`, `Fresh`, `Inserted` and `AfterPass`. Its
  lemmas show what a pass and its batch deletion leave in FoundList, and
  that a second pass over the same listing does nothing.
- `Run` (run.dfy): the loop of `retrieve_search_items`. It visits every
  stored term and builds `master_dict`, the report of non-empty deltas, and
  the error log. Fetching and parsing a page is a parameter
  `fetch: string -> Result<Page, string>`. `Page` is `NoTable` when the page
  has no results table, or `Table(rows)` with the parsed rows. The run
  fetches the URL `get_url` builds, unescaped as in the code (see Findings).
- `BulkImport` (bulk_import.dfy): the line loop of `import_csv`.

Three behaviours of the code worth knowing:

- Storage errors do not roll back a whole multi-row operation.
  `db_remove_item_list` commits after every single DELETE
  (db/database_operations/database_operations.py:82-84). On an SQLite error
  it prints the message and returns None. `db_add_search_string`,
  `db_remove_search_string` and `db_add_found_item` print the error and
  return False. The read operations (`db_check_search_string_exists`,
  `db_get_search_string_id`, `db_get_all_search_strings`,
  `db_get_found_items`, `db_get_entry_count`) catch nothing, so their
  `sqlite3.Error` propagates. Inside the `try` of the run loop
  (gui/gui.py:184-195) such an error becomes the term's error line. Storage
  errors are left out of this model (see below).
- The term's stored keys equal the listed keys after a pass even when the
  listing repeats a key. `PassSettlesKeys` needs no distinctness
  assumption.
- The identity key stays unique only while the listing's keys are unique.
  A listing that repeats a (Subject, Poster, ItemGroup) key stores every
  copy, because each listing row is compared with the rows read before the
  pass (gui/gui.py:111, 126-141) and not with the rows inserted during it.
  `RepeatedKeyStoredTwice` shows two stored rows with one key.
  `PassKeepsKeysDistinct` proves the key unique after a pass when the stored
  keys and the listing's keys are each unique.

## Model

| member | source | states |
|---|---|---|
| `PyStr.Strip` | gui/gui.py:46 | `line.strip()` never grows the text. The result is empty exactly when the line is all whitespace. Otherwise it starts and ends with a non-whitespace character. |
| `PyStr.StripIsSlice` | gui/gui.py:46 | The stripped text is one contiguous slice of the input. Only whitespace lies before and after it. |
| `PyStr.StripIdempotent` | gui/gui.py:46 | Stripping twice is stripping once. |
| `PyStr.Words` | gui/gui.py:160 | The words of `split()` are non-empty and hold no whitespace. There are no words exactly when the term is blank. |
| `PyStr.WordsKeepText` | gui/gui.py:160 | `split()` drops only whitespace: the words laid end to end are the term's non-whitespace characters, in order. |
| `PyStr.WordsAvoid` | gui/gui.py:160 | A character absent from the term is absent from every word. |
| `PyStr.SplitJoin` | gui/gui.py:160 | `'+'.join` of non-empty words without `+` splits at `+` back into exactly those words. |
| `PyStr.JoinNoSpace` | gui/gui.py:160 | Joining whitespace-free words with `+` gives a whitespace-free query. |
| `Query.SearchQuery` | gui/gui.py:160 | The `q` value: the words of `split()` joined by `+`. Its shape is stated by `UrlShape`. |
| `Query.GetUrl` | gui/gui.py:155-164 | `get_url`: the query put into the fixed template with no escaping. `UrlShape`, `PlainUrlRoundTrip` and the Findings state what it yields. |
| `Query.UrlShape` | gui/gui.py:155-164 | The URL is the fixed template `https://binsearch.info/?q=` … `&max=100&adv_age=1100&server=` around the query. The query has no whitespace and is empty exactly when the term is blank. For a term without `+`, the query splits at `+` into the term's words, in order. |
| `Query.PlainUrlRoundTrip` | gui/gui.py:155-164 | For a term without `%`, `&`, `+` or `#`, the site decodes the `q` value of `get_url`'s URL to exactly the term's words joined by single spaces, as the comment at gui/gui.py:156-157 shows. |
| `Query.AmpersandCutsQuery` | gui/gui.py:160-163 | As written, a term such as `a&b` reaches the site as `a`: the `&` ends the `q` value. |
| `Query.PlusBecomesSpace` | gui/gui.py:160-163 | As written, a term such as `C++` reaches the site as `C` followed by two spaces. |
| `Query.EscapedUrlRoundTrip` | gui/gui.py:155-164 | With each word escaped, the site decodes the `q` value to exactly the term's words joined by single spaces, for every term. |
| `Query.EscapeChangesOnlyReserved` | gui/gui.py:155-164 | For a term without `%`, `&`, `+` or `#`, the escaped URL equals the URL `get_url` builds. |
| `Query.DecodeEscape` | gui/gui.py:160 | Form decoding undoes the escaping of a word, whatever text follows it. |
| `Database.FindId` | db/database_operations/database_operations.py:63-70 | The id lookup is None exactly when no stored term has the text. Otherwise it gives the id of a term with that text. |
| `Database.WithoutText` | db/database_operations/database_operations.py:102 | The DELETE keeps exactly the terms whose text differs. |
| `Database.Filter` | db/database_operations/database_operations.py:119-121 | A filter keeps exactly the rows on which the WHERE clause has the wanted value, and never adds rows. |
| `Database.CountText` | db/database_operations/database_operations.py:58 | The COUNT of SearchList rows with the text. `CountTextPositive` ties it to membership. |
| `Database.CountFor` | db/database_operations/database_operations.py:142 | The COUNT of FoundList rows under the search id. `CountIsLength` ties it to the SELECT. |
| `Database.CountTextPositive` | db/database_operations/database_operations.py:58-60 | The COUNT is positive exactly when the text is stored. |
| `Database.CountIsLength` | db/database_operations/database_operations.py:142-144 | The COUNT for a search id is the length of the SELECT for that id. |
| `Database.FilterCommute` | db/database_operations/database_operations.py:83 | Two filters over FoundList may be applied in either order. |
| `Database.DeleteOneMore` | db/database_operations/database_operations.py:82-84 | Deleting the rows of one more listed id, after the earlier ids, is deleting the rows of the longer id list. |
| `Database.FilterKeepsIdsUnique` | db/database_operations/database_operations.py:83 | A DELETE or SELECT keeps the primary key unique. |
| `Database.WithoutTextKeepsUnique` | db/database_operations/database_operations.py:102 | Deleting a term keeps texts and ids unique. |
| `Database.RecordStore.constructor` | db/database_operations/database_operations.py:14-34 | The fresh store has two empty tables and meets the schema's constraints. |
| `Database.RecordStore.Exists` | db/database_operations/database_operations.py:54-60 | True exactly when the term is stored. |
| `Database.RecordStore.IdOf` | db/database_operations/database_operations.py:63-70 | None exactly when the term is absent. Otherwise it is the id of the one stored term with that text. |
| `Database.RecordStore.AllTexts` | db/database_operations/database_operations.py:73-77 | Every stored term, each exactly once. |
| `Database.RecordStore.FoundItems` | db/database_operations/database_operations.py:117-121 | Exactly the rows filed under the search id. |
| `Database.RecordStore.EntryCount` | db/database_operations/database_operations.py:138-144 | The length of `FoundItems` for the same id. |
| `Database.RecordStore.AddSearchString` | db/database_operations/database_operations.py:40-51 | INSERT OR IGNORE: the term is appended under a fresh id when absent. A stored term leaves the store unchanged. It returns True either way and terms stay unique. |
| `Database.RecordStore.RemoveSearchString` | db/database_operations/database_operations.py:91-114 | A stored term is removed together with every row filed under its id, and the result is True. An absent term gives False and changes nothing. |
| `Database.RecordStore.AddFoundItem` | db/database_operations/database_operations.py:124-135 | One row is appended unconditionally under a fresh id, and the result is True. The count for its search id grows by one. The rows of every other id are unchanged. |
| `Database.RecordStore.RemoveItemList` | db/database_operations/database_operations.py:79-89 | Deletes exactly the rows that have the search id and a listed id. Ids without such a row are skipped. Terms and all other rows are unchanged. |
| `Reconciler.StripSubjects` | gui/gui.py:105 | Each row keeps every column except Subject, which becomes `Strip` of the old Subject. |
| `Reconciler.StripSubjectsIdempotent` | gui/gui.py:105 | Stripping an already stripped listing changes nothing. |
| `Reconciler.ListingHasKey` | gui/gui.py:114-119 | True exactly when some listing row has the key. |
| `Reconciler.SnapshotHasKey` | gui/gui.py:127-132 | True exactly when some snapshot row has the key. |
| `Reconciler.Stale` | gui/gui.py:111-123 | An id is in the deletion list exactly when a stored row with that id has a key that no listing row has. |
| `Reconciler.Fresh` | gui/gui.py:126-150 | A row is in the delta exactly when it is listed and its key is absent from the snapshot. |
| `Reconciler.InsertedFacts` | gui/gui.py:136-141 | The k-th inserted row is the k-th delta row with its own five fields, under the term's id and the k-th fresh id. |
| `Reconciler.GetUrlData` | gui/gui.py:88-153 | With no results table: empty delta, empty deletion list, store unchanged. With a table: the deletion list is `Stale` and the delta is `Fresh` against the snapshot read before any insertion. FoundList gains exactly the delta's rows, in listing order. |
| `Reconciler.CollectStale` | gui/gui.py:111-123 | The first loop computes exactly `Stale`, in stored order. |
| `Reconciler.InsertUnmatched` | gui/gui.py:126-150 | The second loop reports exactly `Fresh`, in listing order. It appends exactly those rows to FoundList and changes nothing else. |
| `Reconciler.InsertRow` | gui/gui.py:134-150 | One insertion adds the row with its own fields under the next free id. |
| `Reconciler.AfterPass` | gui/gui.py:111-150 | FoundList after the pass inserted the delta and the stale ids were deleted in one batch (gui/gui.py:188). `PassOnTerm`, `PassLeavesOtherTerms`, `PassKeepsListedRows` and `PassSettlesKeys` state what it holds. |
| `Reconciler.PassOnTerm` | gui/gui.py:111-150 | After a pass and its batch deletion, the term's rows are its old rows that are not in the deletion list, in old order, then the delta rows. |
| `Reconciler.PassLeavesOtherTerms` | gui/gui.py:111-150 | A pass leaves the rows of every other term unchanged. |
| `Reconciler.PassKeepsListedRows` | gui/gui.py:111-141 | An old row of the term survives exactly when its key is listed. A surviving row keeps every field, its Age included. |
| `Reconciler.PassSettlesKeys` | gui/gui.py:111-141 | After the pass the term's stored keys are exactly the listing's keys. |
| `Reconciler.SettledPassIsQuiet` | gui/gui.py:111-141 | When the stored keys equal the listed keys, a pass has nothing to insert and nothing to delete. |
| `Reconciler.SecondPassIsQuiet` | gui/gui.py:111-141 | A second pass over the same listing inserts nothing and deletes nothing. |
| `Reconciler.PassKeepsKeysDistinct` | gui/gui.py:111-141 | When the term's stored keys are pairwise distinct and so are the listing's keys, no two of the term's rows share a key after the pass and its batch deletion. |
| `Reconciler.RepeatedKeyStoredTwice` | gui/gui.py:126-141 | A listing of two rows with one key, against a term with no rows, stores both rows, so two of the term's rows share a key. |
| `Run.ErrorLog` | gui/gui.py:194-195 | At most one error line per term. |
| `Run.ErrorLogLines` | gui/gui.py:194-195 | A line is in the error log exactly when it is `Error for '<term>': <message>` for a term whose fetch or parse raised that message. |
| `Run.ErrorLogAppend` | gui/gui.py:194-195 | The log of the terms `a` then `b` is the log of `a` followed by the log of `b`, so lines come in term order. |
| `Run.ErrorLogOne` | gui/gui.py:194-195 | One term adds exactly one line, with its message, when its page raised, and none otherwise. |
| `Run.Outcome` | gui/gui.py:181-186 | The page, or the exception text, that fetching the URL `get_url` builds for the term yields. |
| `Run.Report` | gui/gui.py:190-191 | `master_dict` as the loop builds it: each term whose delta is non-empty, set to that delta. `ReportHas` and `ReportEntry` state its keys and values. |
| `Run.ReportHas` | gui/gui.py:190-191 | With unique term texts, a term's text is a key of `master_dict` exactly when the term's delta is non-empty, and it maps to that delta: no later term overwrites it. |
| `Run.ReportEntry` | gui/gui.py:190-191 | With unique term texts, a text is a key of `master_dict` exactly when some term with that text reported a non-empty delta, and it maps to the delta of such a term. |
| `Run.RefreshTerm` | gui/gui.py:184-195 | The `try` block for one term. A failed fetch or parse gives the failure's message and leaves the store unchanged. A fetched page is reconciled and its stale rows are deleted. |
| `Run.ReconcilePage` | gui/gui.py:186-188 | The pass, then its deletion batch, gives exactly `PageResult`. The delta is exactly `PageDelta`. |
| `Run.RetrieveSearchItems` | gui/gui.py:172-195 | Terms are visited in table order. `master_dict` maps exactly the terms with a non-empty delta to that delta. The error log has `Error for '<term>': <message>` for exactly the failing terms, in order. At the end the rows of every term with a results table are stated exactly: its old rows that were not stale, in old order, then its delta under fresh ids. So its keys are the listed keys and an old row stays exactly when listed. A term without a table, or whose fetch failed, keeps its rows. Rows of ids with no term are unchanged. |
| `Run.RunStep` | gui/gui.py:180-195 | One term's pass settles that term and moves no other term's rows. |
| `Run.NextLeavesOthers` | gui/gui.py:186-188 | One term's pass never touches another term's rows. |
| `Run.NextSettles` | gui/gui.py:186-188 | With a results table, the term's rows become its non-stale old rows, in order, then its delta under fresh ids. Its stored keys become the listed keys and its old rows stay exactly when listed. Without a table, or on failure, its rows are unchanged. |
| `BulkImport.ImportLines` | gui/gui.py:44-48 | The loop adds exactly the terms `Imported` predicts, in order. Existing terms and FoundList are unchanged. |
| `BulkImport.Imported` | gui/gui.py:44-48 | The texts after the import: each line stripped, and added when non-empty and not yet stored. Its lemmas below state what it holds. |
| `BulkImport.ImportAppends` | gui/gui.py:44-48 | An import only appends, and at most one term per line. |
| `BulkImport.ImportAddsStripped` | gui/gui.py:46-48 | Every added term is non-empty, already stripped and new. |
| `BulkImport.ImportedMembers` | gui/gui.py:44-48 | After the import a text is stored exactly when it was stored before, or some line strips to it and it is non-empty. |
| `BulkImport.ImportKeepsDistinct` | gui/gui.py:47-48 | No text is added twice: texts that are `Distinct` stay `Distinct`. |
| `BulkImport.ImportNothingNew` | gui/gui.py:47 | A file whose non-blank lines are all stored adds nothing. |
| `BulkImport.ImportTwice` | gui/gui.py:44-48 | Importing the same file a second time adds nothing. |

## Left out

- The tkinter interface: listboxes, treeview, buttons, layout and column widths (display only).
- The HTTP request and the BeautifulSoup/pandas parsing of the results table (gui/gui.py:92-107). They are network I/O and foreign libraries. Fetching and parsing together are the parameter `fetch`. A failed request, or a parse failure that makes the later row accesses raise, is `Err(message)`. Either one happens before the pass writes anything. A page without the results table is `Ok(NoTable)`.
- Cell values that pandas reads as NaN or as numbers. Every parsed cell is a string here, except ItemIndex.
- `time.sleep(5)` between terms (wall-clock pacing).
- The timestamp, the output log file and the e-mail after the loop (gui/gui.py:197-245). They are I/O and external services.
- The file dialog, file reading and the printed exception in `import_csv`. The lines are a parameter of `ImportLines`.
- SQLite errors, commit and rollback, and the printed messages. The store operations here always succeed, so `db_add_search_string` and `db_add_found_item` always return True.
- Row ids: SQLite gives a new row the largest id in the table plus one, which may reuse the id of a deleted last row. The model uses a counter per table that only grows. The reconciliation properties need only that a new id is unused.
- `Query.UrlShape` states the split-back property only for terms without `+`. A term holding `+` gives a query whose pieces at `+` are not its words (see Findings).
- The server's handling of a `q` value is modelled by `ServerQuery`: the value runs up to the first `&` or `#`, then `+` reads as a space and `%XX` as one character. Multi-byte UTF-8 escapes are not modelled, because `requests` escapes non-ASCII characters itself.
- `db_get_search_string_id` returning None inside the run loop. This cannot happen, because every term the loop visits was just read from SearchList. `RefreshTerm` requires the term to be stored.
- The FOREIGN KEY from FoundList to SearchList. SQLite does not enforce it by default, so it is kept as the separate predicate `Owned`, and the methods preserve it.
- `db_create_db` beyond the empty initial tables (`RecordStore.constructor`).

## Findings

| source | as written | input that shows it | evidently intended | confidence | as-written member | corrected member |
|---|---|---|---|---|---|---|
| gui/gui.py:160-163 | The words are joined by `+` and put into the URL without percent-encoding. | The term `a&b`: the `&` starts a new URL parameter, so the site searches for `a`. Likewise `Tom & Jerry` reaches it as `Tom` and a space. | The site receives the term's words joined by single spaces, as the comment at gui/gui.py:156-157 shows for `Piers Anthony epub`. | medium, not executed | `Query.AmpersandCutsQuery` | `Query.EscapedUrlRoundTrip` |
| gui/gui.py:160-163 | A `+` inside a word is left as it is, and the site decodes it as a space. | The term `C++`: the site searches for `C` and two spaces. | The same as above: the site receives `C++`. | medium, not executed | `Query.PlusBecomesSpace` | `Query.EscapedUrlRoundTrip` |

=== FILE: bulk_import.dfy ===
/** The line loop of `import_csv` (gui/gui.py): every line of the chosen
    file, stripped, becomes a search term unless it is blank or already
    stored. */
module BulkImport {
  import opened PyStr
  import opened Records
  import opened Database

  /** The term texts after importing `lines` on top of the texts `texts`, in
      table order. */
  function Imported(texts: seq<string>, lines: seq<string>): seq<string> {
    if lines == [] then texts
    else
      var prev := Imported(texts, lines[..|lines| - 1]);
      var s := Strip(lines[|lines| - 1]);
      if s != [] && s !in prev then prev + [s] else prev
  }

  /** The import loop: strip each line and add it when it is non-empty and
      not yet stored. */
  method ImportLines(store: RecordStore, lines: seq<string>)
    requires store.Valid()
    modifies store
    ensures store.Valid()
    ensures Texts(store.terms) == Imported(old(Texts(store.terms)), lines)
    ensures old(store.terms) <= store.terms
    ensures store.items == old(store.items) && store.nextItemId == old(store.nextItemId)
    ensures old(store.Owned()) ==> store.Owned()
  {
    var i := 0;
    while i < |lines|
      invariant 0 <= i <= |lines|
      invariant store.Valid()
      invariant Texts(store.terms) == Imported(old(Texts(store.terms)), lines[..i])
      invariant old(store.terms) <= store.terms
      invariant store.items == old(store.items) && store.nextItemId == old(store.nextItemId)
      invariant old(store.Owned()) ==> store.Owned()
    {
      var s := Strip(lines[i]);
      ImportedSnoc(old(Texts(store.terms)), lines, i);
      if s != [] && !store.Exists(s) {
        ghost var before := store.terms;
        var _ := store.AddSearchString(s);
        TextsSnoc(before, SearchTerm(store.nextTermId - 1, s));
        assert before <= store.terms;
        assert Texts(store.terms) == Texts(before) + [s];
      }
      i := i + 1;
    }
    assert lines[..i] == lines;
  }

  lemma ImportedSnoc(texts: seq<string>, lines: seq<string>, i: int)
    requires 0 <= i < |lines|
    ensures var prev := Imported(texts, lines[..i]);
            var s := Strip(lines[i]);
            Imported(texts, lines[..i + 1]) == if s != [] && s !in prev then prev + [s] else prev
  {
    assert lines[..i + 1][..i] == lines[..i];
  }

  /** An import only appends: the old texts stay first and in order, and
      at most one text is added per line. */
  lemma {:induction false} ImportAppends(texts: seq<string>, lines: seq<string>)
    ensures |texts| <= |Imported(texts, lines)| <= |texts| + |lines|
    ensures Imported(texts, lines)[..|texts|] == texts
  {
    if lines != [] {
      var init := lines[..|lines| - 1];
      var prev := Imported(texts, init);
      ImportAppends(texts, init);
      assert (prev + [Strip(lines[|lines| - 1])])[..|texts|] == prev[..|texts|];
    }
  }

  /** A text an import may add on top of `texts`: non-empty, already
      stripped (no surrounding whitespace) and not there before. */
  ghost predicate NewText(texts: seq<string>, s: string) {
    s != [] && Strip(s) == s && s !in texts
  }

  /** Every text an import adds is non-empty, already stripped and was not
      there before. */
  lemma {:induction false} ImportAddsStripped(texts: seq<string>, lines: seq<string>)
    ensures forall j :: |texts| <= j < |Imported(texts, lines)| ==> NewText(texts, Imported(texts, lines)[j])
  {
    if lines != [] {
      var init := lines[..|lines| - 1];
      var line := lines[|lines| - 1];
      var prev := Imported(texts, init);
      var s := Strip(line);
      ImportAddsStripped(texts, init);
      if s != [] && s !in prev {
        StripIdempotent(line);
        ImportAppends(texts, init);
        PrefixMembers(texts, prev);
        AddedSnoc(texts, prev, s);
      }
    }
  }

  lemma PrefixMembers(texts: seq<string>, prev: seq<string>)
    requires |texts| <= |prev| && prev[..|texts|] == texts
    ensures forall t :: t in texts ==> t in prev
  {
    forall t | t in texts
      ensures t in prev
    {
      var j :| 0 <= j < |texts| && texts[j] == t;
      assert prev[j] == t;
    }
  }

  lemma AddedSnoc(texts: seq<string>, prev: seq<string>, s: string)
    requires |texts| <= |prev|
    requires forall j :: |texts| <= j < |prev| ==> NewText(texts, prev[j])
    requires NewText(texts, s)
    ensures forall j :: |texts| <= j < |prev + [s]| ==> NewText(texts, (prev + [s])[j])
  {
    forall j | |texts| <= j < |prev + [s]|
      ensures NewText(texts, (prev + [s])[j])
    {
      if j < |prev| {
        assert (prev + [s])[j] == prev[j];
      }
    }
  }

  /** A text is present after an import exactly when it was before or some
      non-blank line strips to it. */
  lemma ImportedMembers(texts: seq<string>, lines: seq<string>)
    ensures forall s :: s in Imported(texts, lines) <==>
              s in texts || (s != [] && exists k :: 0 <= k < |lines| && Strip(lines[k]) == s)
  {
    forall s | s in Imported(texts, lines)
      ensures s in texts || (s != [] && exists k :: 0 <= k < |lines| && Strip(lines[k]) == s)
    {
      ImportedFrom(texts, lines, s);
    }
    forall k | 0 <= k < |lines| && Strip(lines[k]) != []
      ensures Strip(lines[k]) in Imported(texts, lines)
    {
      ImportedHas(texts, lines, k);
    }
    forall s | s in texts
      ensures s in Imported(texts, lines)
    {
      ImportKeeps(texts, lines, s);
    }
  }

  lemma {:induction false} ImportedFrom(texts: seq<string>, lines: seq<string>, s: string)
    requires s in Imported(texts, lines)
    ensures s in texts || (s != [] && exists k :: 0 <= k < |lines| && Strip(lines[k]) == s)
  {
    if lines != [] {
      var init := lines[..|lines| - 1];
      if s in Imported(texts, init) {
        ImportedFrom(texts, init, s);
        if s !in texts {
          var k :| 0 <= k < |init| && Strip(init[k]) == s;
          assert lines[k] == init[k];
        }
      } else {
        assert Strip(lines[|lines| - 1]) == s;
      }
    }
  }

  lemma {:induction false} ImportKeeps(texts: seq<string>, lines: seq<string>, s: string)
    requires s in texts
    ensures s in Imported(texts, lines)
  {
    if lines != [] {
      ImportKeeps(texts, lines[..|lines| - 1], s);
    }
  }

  lemma {:induction false} ImportedHas(texts: seq<string>, lines: seq<string>, k: int)
    requires 0 <= k < |lines| && Strip(lines[k]) != []
    ensures Strip(lines[k]) in Imported(texts, lines)
  {
    var init := lines[..|lines| - 1];
    if k < |init| {
      assert init[k] == lines[k];
      ImportedHas(texts, init, k);
      ImportKeeps(Imported(texts, init), [lines[|lines| - 1]], Strip(lines[k]));
      assert Imported(Imported(texts, init), [lines[|lines| - 1]]) == Imported(texts, lines);
    }
  }

  /** An import adds no text twice. */
  lemma {:induction false} ImportKeepsDistinct(texts: seq<string>, lines: seq<string>)
    requires Distinct(texts)
    ensures Distinct(Imported(texts, lines))
  {
    if lines != [] {
      var init := lines[..|lines| - 1];
      ImportKeepsDistinct(texts, init);
    }
  }

  /** Importing a file whose every non-blank line is already stored adds
      nothing. */
  lemma {:induction false} ImportNothingNew(texts: seq<string>, lines: seq<string>)
    requires forall k :: 0 <= k < |lines| ==> Strip(lines[k]) == [] || Strip(lines[k]) in texts
    ensures Imported(texts, lines) == texts
  {
    if lines != [] {
      ImportNothingNew(texts, lines[..|lines| - 1]);
    }
  }

  /** Importing the same file twice adds nothing the second time. */
  lemma ImportTwice(texts: seq<string>, lines: seq<string>)
    ensures Imported(Imported(texts, lines), lines) == Imported(texts, lines)
  {
    ImportedMembers(texts, lines);
    ImportNothingNew(Imported(texts, lines), lines);
  }
}

=== FILE: database.dfy ===
/** The record store of db/database_operations/database_operations.py: the
    SearchList table (unique term texts with integer ids) and the FoundList
    table (listing rows filed under a SearchList id), held in memory. */
module Database {
  import opened Wrappers
  import opened Records

  /** The search_string column of SearchList, in table order. */
  function Texts(ts: seq<SearchTerm>): seq<string> {
    seq(|ts|, k requires 0 <= k < |ts| => ts[k].text)
  }

  lemma TextsSnoc(ts: seq<SearchTerm>, t: SearchTerm)
    ensures Texts(ts + [t]) == Texts(ts) + [t.text]
  {
  }

  lemma PrefixSnoc<T>(s: seq<T>, i: int)
    requires 0 <= i < |s|
    ensures s[..i + 1] == s[..i] + [s[i]]
  {
  }

  /** No text occurs twice. */
  predicate Distinct(texts: seq<string>) {
    forall i, j :: 0 <= i < j < |texts| ==> texts[i] != texts[j]
  }

  /** No two SearchList rows share a text (the UNIQUE column) or an id (the
      primary key). */
  ghost predicate TermsUnique(ts: seq<SearchTerm>) {
    forall i, j :: 0 <= i < j < |ts| ==> ts[i].text != ts[j].text && ts[i].id != ts[j].id
  }

  /** No two FoundList rows share an id (the primary key). */
  ghost predicate IdsUnique(xs: seq<FoundItem>) {
    forall i, j :: 0 <= i < j < |xs| ==> xs[i].id != xs[j].id
  }

  /** The WHERE clauses the store runs against FoundList. */
  datatype Cond = SearchIdIs(sid: int) | SearchIdAndIdIn(sid: int, ids: seq<int>)

  predicate Holds(c: Cond, x: FoundItem) {
    match c
    case SearchIdIs(sid) => x.searchId == sid
    case SearchIdAndIdIn(sid, ids) => x.searchId == sid && x.id in ids
  }

  /** The rows of `xs` on which `c` evaluates to `keep`, in table order: what
      `SELECT * ... WHERE c` returns when `keep` holds, and what
      `DELETE ... WHERE c` leaves behind when it does not. */
  function Filter(xs: seq<FoundItem>, c: Cond, keep: bool): (r: seq<FoundItem>)
    ensures |r| <= |xs|
    ensures forall x {:trigger x in r} :: x in r <==> x in xs && Holds(c, x) == keep
  {
    if xs == [] then []
    else
      var last := xs[|xs| - 1];
      Filter(xs[..|xs| - 1], c, keep) + (if Holds(c, last) == keep then [last] else [])
  }

  /** The FoundList rows filed under `sid`. */
  function ItemsFor(xs: seq<FoundItem>, sid: int): seq<FoundItem> {
    Filter(xs, SearchIdIs(sid), true)
  }

  /** `SELECT COUNT(*) FROM FoundList WHERE search_id = sid`. */
  function CountFor(xs: seq<FoundItem>, sid: int): nat {
    if xs == [] then 0
    else CountFor(xs[..|xs| - 1], sid) + (if xs[|xs| - 1].searchId == sid then 1 else 0)
  }

  /** `SELECT COUNT(*) FROM SearchList WHERE search_string = s`. */
  function CountText(ts: seq<SearchTerm>, s: string): nat {
    if ts == [] then 0
    else CountText(ts[..|ts| - 1], s) + (if ts[|ts| - 1].text == s then 1 else 0)
  }

  /** `SELECT id FROM SearchList WHERE search_string = s`, first row or None. */
  function FindId(ts: seq<SearchTerm>, s: string): (r: Option<int>)
    ensures r.None? <==> s !in Texts(ts)
    ensures r.Some? ==> SearchTerm(r.value, s) in ts
  {
    if ts == [] then None
    else if ts[0].text == s then
      assert Texts(ts)[0] == s;
      assert ts[0] == SearchTerm(ts[0].id, s);
      Some(ts[0].id)
    else
      assert Texts(ts) == [ts[0].text] + Texts(ts[1..]);
      FindId(ts[1..], s)
  }

  /** What `DELETE FROM SearchList WHERE search_string = s` leaves behind. */
  function WithoutText(ts: seq<SearchTerm>, s: string): (r: seq<SearchTerm>)
    ensures forall t {:trigger t in r} :: t in r <==> t in ts && t.text != s
  {
    if ts == [] then []
    else
      var last := ts[|ts| - 1];
      WithoutText(ts[..|ts| - 1], s) + (if last.text != s then [last] else [])
  }

  lemma {:induction false} CountTextPositive(ts: seq<SearchTerm>, s: string)
    ensures CountText(ts, s) > 0 <==> s in Texts(ts)
  {
    if ts != [] {
      var init := ts[..|ts| - 1];
      CountTextPositive(init, s);
      assert Texts(ts) == Texts(init) + [ts[|ts| - 1].text];
    }
  }

  /** The count query agrees with the row query: `db_get_entry_count` is the
      length of what `db_get_found_items` returns. */
  lemma {:induction false} CountIsLength(xs: seq<FoundItem>, sid: int)
    ensures CountFor(xs, sid) == |ItemsFor(xs, sid)|
  {
    if xs != [] {
      CountIsLength(xs[..|xs| - 1], sid);
    }
  }

  lemma {:induction false} FilterAppend(a: seq<FoundItem>, b: seq<FoundItem>, c: Cond, keep: bool)
    ensures Filter(a + b, c, keep) == Filter(a, c, keep) + Filter(b, c, keep)
    decreases |b|
  {
    if b == [] {
      assert a + b == a;
    } else {
      var init := b[..|b| - 1];
      assert (a + b)[..|a + b| - 1] == a + init;
      FilterAppend(a, init, c, keep);
    }
  }

  /** A filter that every row passes (or that no row passes) changes nothing
      (removes everything). */
  lemma {:induction false} FilterAll(xs: seq<FoundItem>, c: Cond, keep: bool)
    requires forall x :: x in xs ==> Holds(c, x) == keep
    ensures Filter(xs, c, keep) == xs
  {
    if xs != [] {
      var init := xs[..|xs| - 1];
      var last := xs[|xs| - 1];
      forall x | x in init
        ensures Holds(c, x) == keep
      {
        var k :| 0 <= k < |init| && init[k] == x;
        assert xs[k] == x;
      }
      FilterAll(init, c, keep);
      assert Holds(c, last) == keep by {
        assert last in xs;
      }
      assert xs == init + [last];
    }
  }

  /** Filters over different conditions commute. */
  lemma {:induction false} FilterCommute(xs: seq<FoundItem>, c: Cond, k: bool, d: Cond, l: bool)
    ensures Filter(Filter(xs, c, k), d, l) == Filter(Filter(xs, d, l), c, k)
  {
    if xs != [] {
      var init := xs[..|xs| - 1];
      var last := xs[|xs| - 1];
      FilterCommute(init, c, k, d, l);
      FilterLast(Filter(init, c, k), last, c, k, d, l);
      FilterLast(Filter(init, d, l), last, d, l, c, k);
    }
  }

  /** Filtering the rows that passed a first filter, one more row at a time. */
  lemma FilterLast(ys: seq<FoundItem>, last: FoundItem, c: Cond, k: bool, d: Cond, l: bool)
    ensures Filter(ys + (if Holds(c, last) == k then [last] else []), d, l)
         == Filter(ys, d, l) + (if Holds(c, last) == k && Holds(d, last) == l then [last] else [])
  {
    var lc := if Holds(c, last) == k then [last] else [];
    FilterAppend(ys, lc, d, l);
    assert lc == [last] ==> lc[..0] == [];
  }

  /** Deleting the rows of one more listed id, after those of `ids`, is
      deleting the rows of `ids + [id]`. */
  lemma {:induction false} DeleteOneMore(xs: seq<FoundItem>, sid: int, ids: seq<int>, id: int)
    ensures Filter(Filter(xs, SearchIdAndIdIn(sid, ids), false), SearchIdAndIdIn(sid, [id]), false)
         == Filter(xs, SearchIdAndIdIn(sid, ids + [id]), false)
  {
    if xs != [] {
      var init := xs[..|xs| - 1];
      var last := xs[|xs| - 1];
      DeleteOneMore(init, sid, ids, id);
      var l1 := if Holds(SearchIdAndIdIn(sid, ids), last) == false then [last] else [];
      FilterAppend(Filter(init, SearchIdAndIdIn(sid, ids), false), l1, SearchIdAndIdIn(sid, [id]), false);
      assert l1 == [last] ==> l1[..0] == [];
    }
  }

  lemma {:induction false} FilterKeepsIdsUnique(xs: seq<FoundItem>, c: Cond, keep: bool)
    requires IdsUnique(xs)
    ensures IdsUnique(Filter(xs, c, keep))
  {
    if xs != [] {
      var init := xs[..|xs| - 1];
      var last := xs[|xs| - 1];
      FilterKeepsIdsUnique(init, c, keep);
      var f := Filter(init, c, keep);
      forall x | x in f
        ensures x.id != last.id
      {
        var k :| 0 <= k < |init| && init[k] == x;
        assert xs[k] == x;
      }
    }
  }

  lemma {:induction false} WithoutTextKeepsUnique(ts: seq<SearchTerm>, s: string)
    requires TermsUnique(ts)
    ensures TermsUnique(WithoutText(ts, s))
  {
    if ts != [] {
      var init := ts[..|ts| - 1];
      var last := ts[|ts| - 1];
      WithoutTextKeepsUnique(init, s);
      var f := WithoutText(init, s);
      forall t | t in f
        ensures t.text != last.text && t.id != last.id
      {
        var k :| 0 <= k < |init| && init[k] == t;
        assert ts[k] == t;
      }
    }
  }

  /** Every row of `items` is filed under the id of some term of `terms`. */
  ghost predicate OwnedBy(terms: seq<SearchTerm>, items: seq<FoundItem>) {
    forall x :: x in items ==> exists t :: t in terms && t.id == x.searchId
  }

  /** The in-memory store: both tables and the next primary key of each
      (SQLite hands out rowids per table). */
  class RecordStore {
    var terms: seq<SearchTerm>
    var items: seq<FoundItem>
    var nextTermId: int
    var nextItemId: int

    /** The schema's constraints: unique texts and ids, and counters above
        every id in use. */
    ghost predicate Valid()
      reads this
    {
      && TermsUnique(terms)
      && IdsUnique(items)
      && (forall t :: t in terms ==> t.id < nextTermId)
      && (forall x :: x in items ==> x.id < nextItemId)
    }

    /** Every FoundList row belongs to a stored term: the schema's FOREIGN
        KEY, which SQLite does not enforce by default, so the store keeps it
        only as long as its callers file rows under existing ids. */
    ghost predicate Owned()
      reads this
    {
      OwnedBy(terms, items)
    }

    /** `db_create_db` on a fresh file: two empty tables. */
    constructor ()
      ensures Valid() && Owned()
      ensures terms == [] && items == []
    {
      terms, items := [], [];
      nextTermId, nextItemId := 1, 1;
    }

    /** `db_check_search_string_exists`: a COUNT query compared with zero. */
    function Exists(s: string): (b: bool)
      reads this
      ensures b <==> s in Texts(terms)
    {
      CountTextPositive(terms, s);
      CountText(terms, s) > 0
    }

    /** `db_get_search_string_id`. */
    function IdOf(s: string): (r: Option<int>)
      reads this
      requires Valid()
      ensures r.None? <==> s !in Texts(terms)
      ensures forall t :: t in terms && t.text == s ==> r == Some(t.id)
    {
      var r := FindId(terms, s);
      assert forall t :: t in terms && t.text == s ==> r == Some(t.id) by {
        forall t | t in terms && t.text == s
          ensures r == Some(t.id)
        {
          var i :| 0 <= i < |terms| && terms[i] == t;
          assert Texts(terms)[i] == s;
          var j :| 0 <= j < |terms| && terms[j] == SearchTerm(r.value, s);
          assert i == j;
        }
      }
      r
    }

    /** `db_get_all_search_strings`: every stored term, each exactly once. */
    function AllTexts(): (r: seq<string>)
      reads this
      requires Valid()
      ensures |r| == |terms|
      ensures forall s :: s in r <==> exists t :: t in terms && t.text == s
      ensures Distinct(r)
    {
      var r := Texts(terms);
      assert forall t :: t in terms ==> t.text in r by {
        forall t | t in terms
          ensures t.text in r
        {
          var i :| 0 <= i < |terms| && terms[i] == t;
          assert r[i] == t.text;
        }
      }
      r
    }

    /** `db_get_found_items`: exactly the rows filed under `sid`, in table order. */
    function FoundItems(sid: int): (r: seq<FoundItem>)
      reads this
      ensures forall x :: x in r <==> x in items && x.searchId == sid
    {
      ItemsFor(items, sid)
    }

    /** `db_get_entry_count`. */
    function EntryCount(sid: int): (n: nat)
      reads this
      ensures n == |FoundItems(sid)|
    {
      CountIsLength(items, sid);
      CountFor(items, sid)
    }

    /** `db_add_search_string`: INSERT OR IGNORE, reporting success either way. */
    method AddSearchString(s: string) returns (ok: bool)
      requires Valid()
      modifies this
      ensures Valid() && ok
      ensures items == old(items) && nextItemId == old(nextItemId)
      ensures s in old(Texts(terms)) ==> terms == old(terms) && nextTermId == old(nextTermId)
      ensures s !in old(Texts(terms)) ==>
                terms == old(terms) + [SearchTerm(old(nextTermId), s)] && nextTermId == old(nextTermId) + 1
      ensures s in Texts(terms)
      ensures old(Owned()) ==> Owned()
    {
      if s !in Texts(terms) {
        ghost var before := terms;
        assert forall i :: 0 <= i < |before| ==> before[i].text == Texts(before)[i];
        assert forall i :: 0 <= i < |before| ==> before[i] in before;
        terms := terms + [SearchTerm(nextTermId, s)];
        nextTermId := nextTermId + 1;
        assert Texts(terms) == Texts(before) + [s];
        assert forall t :: t in before ==> t in terms;
      }
      ok := true;
    }

    /** `db_remove_search_string`: the term and, explicitly, every row filed
        under its id; False when the term is not stored. */
    method RemoveSearchString(s: string) returns (ok: bool)
      requires Valid()
      modifies this
      ensures Valid()
      ensures ok <==> s in old(Texts(terms))
      ensures !ok ==> terms == old(terms) && items == old(items)
      ensures ok ==> (terms == WithoutText(old(terms), s)
                      && items == Filter(old(items), SearchIdIs(old(IdOf(s)).value), false))
      ensures ok ==> forall x :: x in items ==> x.searchId != old(IdOf(s)).value
      ensures s !in Texts(terms)
      ensures nextTermId == old(nextTermId) && nextItemId == old(nextItemId)
      ensures old(Owned()) ==> Owned()
    {
      var found := IdOf(s);
      match found {
        case None =>
          ok := false;
        case Some(sid) =>
          ghost var oldTerms := terms;
          terms := WithoutText(terms, s);
          items := Filter(items, SearchIdIs(sid), false);
          WithoutTextKeepsUnique(oldTerms, s);
          FilterKeepsIdsUnique(old(items), SearchIdIs(sid), false);
          if old(Owned()) {
            forall x | x in items
              ensures exists t :: t in terms && t.id == x.searchId
            {
              var t :| t in oldTerms && t.id == x.searchId;
              assert t in terms;
            }
          }
          forall k | 0 <= k < |terms|
            ensures terms[k].text != s
          {
            assert terms[k] in terms;
          }
          ok := true;
      }
    }

    /** `db_add_found_item`: an unconditional insert under a fresh id. */
    method AddFoundItem(sid: int, index: int, subject: string, poster: string, group: string, age: string)
      returns (ok: bool)
      requires Valid()
      modifies this
      ensures Valid() && ok
      ensures items == old(items) + [FoundItem(old(nextItemId), sid, index, subject, poster, group, age)]
      ensures nextItemId == old(nextItemId) + 1
      ensures terms == old(terms) && nextTermId == old(nextTermId)
      ensures EntryCount(sid) == old(EntryCount(sid)) + 1
      ensures forall other :: other != sid ==> FoundItems(other) == old(FoundItems(other))
      ensures old(Owned()) && (exists t :: t in terms && t.id == sid) ==> Owned()
    {
      var x := FoundItem(nextItemId, sid, index, subject, poster, group, age);
      assert CountFor(items + [x], sid) == CountFor(items, sid) + 1 by {
        assert (items + [x])[..|items|] == items;
      }
      CountIsLength(items, sid);
      CountIsLength(items + [x], sid);
      forall other | other != sid
        ensures ItemsFor(items + [x], other) == ItemsFor(items, other)
      {
        FilterAppend(items, [x], SearchIdIs(other), true);
        assert [x][..0] == [];
      }
      assert forall y :: y in items ==> y.id != x.id;
      items := items + [x];
      nextItemId := nextItemId + 1;
      ok := true;
    }

    /** `db_remove_item_list`: one `DELETE ... WHERE search_id = sid AND id = i`
        per listed id; ids with no such row delete nothing. */
    method RemoveItemList(sid: int, ids: seq<int>)
      requires Valid()
      modifies this
      ensures Valid()
      ensures items == Filter(old(items), SearchIdAndIdIn(sid, ids), false)
      ensures terms == old(terms) && nextTermId == old(nextTermId) && nextItemId == old(nextItemId)
      ensures old(Owned()) ==> Owned()
    {
      FilterAll(items, SearchIdAndIdIn(sid, []), false);
      var i := 0;
      while i < |ids|
        invariant 0 <= i <= |ids|
        invariant items == Filter(old(items), SearchIdAndIdIn(sid, ids[..i]), false)
        invariant terms == old(terms) && nextTermId == old(nextTermId) && nextItemId == old(nextItemId)
      {
        DeleteOneMore(old(items), sid, ids[..i], ids[i]);
        items := Filter(items, SearchIdAndIdIn(sid, [ids[i]]), false);
        PrefixSnoc(ids, i);
        i := i + 1;
      }
      assert ids[..i] == ids;
      FilterKeepsIdsUnique(old(items), SearchIdAndIdIn(sid, ids), false);
      assert forall x :: x in items ==> x in old(items);
    }
  }
}

=== FILE: pystr.dfy ===
/** The few Python string builtins the core relies on: `str.isspace`,
    `str.strip()`, `str.split()` with no argument, `sep.join(words)` and
    `str.split(sep)` with a one-character separator. */
module PyStr {
  /** A character Python's `str.isspace()` accepts: the ASCII whitespace
      (space, tab, line feed, vertical tab, form feed, carriage return), the
      information separators 0x1C to 0x1F, NEL, NO-BREAK SPACE and the Unicode
      space and line/paragraph separators. */
  predicate IsSpace(c: char) {
    || c == ' '
    || ('\t' <= c <= '\r')
    || ('\U{1C}' <= c <= '\U{1F}')
    || c == '\U{85}'
    || c == '\U{A0}'
    || c == '\U{1680}'
    || ('\U{2000}' <= c <= '\U{200A}')
    || c == '\U{2028}'
    || c == '\U{2029}'
    || c == '\U{202F}'
    || c == '\U{205F}'
    || c == '\U{3000}'
  }

  predicate NoSpace(s: string) {
    forall k :: 0 <= k < |s| ==> !IsSpace(s[k])
  }

  predicate AllSpace(s: string) {
    forall k :: 0 <= k < |s| ==> IsSpace(s[k])
  }

  /** `s` with its leading whitespace removed. */
  function TrimLeft(s: string): (r: string)
    ensures |r| <= |s| && r == s[|s| - |r|..]
    ensures AllSpace(s[..|s| - |r|])
    ensures r != [] ==> !IsSpace(r[0])
  {
    if s != [] && IsSpace(s[0]) then
      var r := TrimLeft(s[1..]);
      assert s[..|s| - |r|] == [s[0]] + s[1..][..|s| - 1 - |r|];
      r
    else s
  }

  /** `s` with its trailing whitespace removed. */
  function TrimRight(s: string): (r: string)
    ensures |r| <= |s| && r == s[..|r|]
    ensures AllSpace(s[|r|..])
    ensures r != [] ==> !IsSpace(r[|r| - 1])
  {
    if s != [] && IsSpace(s[|s| - 1]) then
      var r := TrimRight(s[..|s| - 1]);
      assert s[|r|..] == s[..|s| - 1][|r|..] + [s[|s| - 1]];
      r
    else s
  }

  /** Python's `s.strip()`: `s` without its leading and trailing whitespace. */
  function Strip(s: string): (r: string)
    ensures |r| <= |s|
    ensures r == [] || (!IsSpace(r[0]) && !IsSpace(r[|r| - 1]))
    ensures r == [] <==> AllSpace(s)
  {
    var t := TrimLeft(s);
    assert t == [] ==> s == s[..|s| - |t|];
    TrimRight(t)
  }

  /** What `s.strip()` removes is whitespace only, and what it keeps is one
      contiguous slice of `s`: `s` is `s[..a] + Strip(s) + s[a + |Strip(s)|..]`. */
  lemma StripIsSlice(s: string) returns (a: nat)
    ensures a + |Strip(s)| <= |s|
    ensures Strip(s) == s[a..a + |Strip(s)|]
    ensures AllSpace(s[..a]) && AllSpace(s[a + |Strip(s)|..])
  {
    var t := TrimLeft(s);
    var r := TrimRight(t);
    a := |s| - |t|;
    assert s[a + |r|..] == t[|r|..];
  }

  /** Stripping twice is stripping once. */
  lemma StripIdempotent(s: string)
    ensures Strip(Strip(s)) == Strip(s)
  {
    var r := Strip(s);
    assert TrimLeft(r) == r;
    assert TrimRight(r) == r;
  }

  /** The longest prefix of `s` that holds no whitespace. */
  function FirstWord(s: string): (w: string)
    ensures |w| <= |s| && w == s[..|w|]
    ensures NoSpace(w)
    ensures |w| < |s| ==> IsSpace(s[|w|])
  {
    if s == [] || IsSpace(s[0]) then [] else [s[0]] + FirstWord(s[1..])
  }

  /** Python's `s.split()`: the maximal runs of non-whitespace characters of
      `s`, in order. */
  function Words(s: string): (ws: seq<string>)
    ensures forall k :: 0 <= k < |ws| ==> ws[k] != [] && NoSpace(ws[k])
    ensures ws == [] <==> AllSpace(s)
    decreases |s|
  {
    var t := TrimLeft(s);
    if t == [] then
      assert s == s[..|s| - |t|];
      []
    else
      var w := FirstWord(t);
      assert w != [] by { assert !IsSpace(t[0]); }
      assert !AllSpace(s) by { assert s[|s| - |t|] == t[0]; }
      var rest := Words(t[|w|..]);
      var ws := [w] + rest;
      assert forall k :: 0 <= k < |ws| ==> ws[k] != [] && NoSpace(ws[k]) by {
        forall k | 0 <= k < |ws| ensures ws[k] != [] && NoSpace(ws[k]) {
          if k > 0 {
            assert ws[k] == rest[k - 1];
          }
        }
      }
      ws
  }

  /** The characters of `s` that are not whitespace, in order. */
  function NonSpace(s: string): string {
    if s == [] then [] else (if IsSpace(s[0]) then [] else [s[0]]) + NonSpace(s[1..])
  }

  function Concat(ws: seq<string>): string {
    if ws == [] then [] else ws[0] + Concat(ws[1..])
  }

  /** Python's `sep.join(ws)` for a one-character separator. */
  function Join(ws: seq<string>, sep: char): string {
    if ws == [] then []
    else if |ws| == 1 then ws[0]
    else ws[0] + [sep] + Join(ws[1..], sep)
  }

  /** Index of the first `c` in `s`, or `|s|` when there is none. */
  function IndexOf(s: string, c: char): (i: nat)
    ensures i <= |s|
    ensures i < |s| ==> s[i] == c
    ensures forall k :: 0 <= k < i ==> s[k] != c
  {
    if s == [] || s[0] == c then 0 else 1 + IndexOf(s[1..], c)
  }

  /** Python's `s.split(sep)` for a one-character separator: the pieces
      between separators, empty ones included. */
  function SplitOn(s: string, sep: char): (parts: seq<string>)
    ensures |parts| >= 1
    decreases |s|
  {
    var i := IndexOf(s, sep);
    if i == |s| then [s] else [s[..i]] + SplitOn(s[i + 1..], sep)
  }

  lemma {:induction false} NonSpaceAppend(a: string, b: string)
    ensures NonSpace(a + b) == NonSpace(a) + NonSpace(b)
    decreases |a|
  {
    if a == [] {
      assert a + b == b;
    } else {
      assert (a + b)[0] == a[0];
      assert (a + b)[1..] == a[1..] + b;
      NonSpaceAppend(a[1..], b);
      var h := if IsSpace(a[0]) then [] else [a[0]];
      calc {
        NonSpace(a + b);
        h + NonSpace(a[1..] + b);
        h + (NonSpace(a[1..]) + NonSpace(b));
        (h + NonSpace(a[1..])) + NonSpace(b);
      }
    }
  }

  lemma {:induction false} NonSpaceOfSpaces(s: string)
    requires AllSpace(s)
    ensures NonSpace(s) == []
    decreases |s|
  {
    if s != [] {
      NonSpaceOfSpaces(s[1..]);
    }
  }

  lemma {:induction false} NonSpaceOfWord(w: string)
    requires NoSpace(w)
    ensures NonSpace(w) == w
    decreases |w|
  {
    if w != [] {
      NonSpaceOfWord(w[1..]);
      assert w == [w[0]] + w[1..];
    }
  }

  /** `s.split()` loses only whitespace: the words, laid end to end, are the
      non-whitespace characters of `s` in their original order. */
  lemma {:induction false} WordsKeepText(s: string)
    ensures Concat(Words(s)) == NonSpace(s)
    decreases |s|
  {
    var t := TrimLeft(s);
    NonSpaceTrimLeft(s);
    if t != [] {
      var w := FirstWord(t);
      var rest := t[|w|..];
      WordsStep(s);
      ConcatCons(w, Words(rest));
      WordsKeepText(rest);
      NonSpaceWordThenRest(t);
    }
  }

  lemma NonSpaceTrimLeft(s: string)
    ensures NonSpace(s) == NonSpace(TrimLeft(s))
  {
    var t := TrimLeft(s);
    var lead := s[..|s| - |t|];
    assert s == lead + t;
    NonSpaceAppend(lead, t);
    NonSpaceOfSpaces(lead);
  }

  lemma WordsStep(s: string)
    requires TrimLeft(s) != []
    ensures var t := TrimLeft(s);
            Words(s) == [FirstWord(t)] + Words(t[|FirstWord(t)|..])
  {
  }

  lemma ConcatCons(w: string, ws: seq<string>)
    ensures Concat([w] + ws) == w + Concat(ws)
  {
    assert ([w] + ws)[1..] == ws;
  }

  lemma NonSpaceWordThenRest(t: string)
    ensures NonSpace(t) == FirstWord(t) + NonSpace(t[|FirstWord(t)|..])
  {
    var w := FirstWord(t);
    var rest := t[|w|..];
    assert t == w + rest;
    NonSpaceAppend(w, rest);
    NonSpaceOfWord(w);
  }

  /** A non-empty text without whitespace is a single word. */
  lemma WordsOfWord(w: string)
    requires w != [] && NoSpace(w)
    ensures Words(w) == [w]
  {
    assert TrimLeft(w) == w;
    FirstWordOfWord(w);
    assert w[|w|..] == [];
  }

  lemma {:induction false} FirstWordOfWord(w: string)
    requires NoSpace(w)
    ensures FirstWord(w) == w
    decreases |w|
  {
    if w != [] {
      FirstWordOfWord(w[1..]);
      assert w == [w[0]] + w[1..];
    }
  }

  /** A character absent from `s` is absent from every word of `s.split()`. */
  lemma {:induction false} WordsAvoid(s: string, c: char)
    requires c !in s
    ensures forall k :: 0 <= k < |Words(s)| ==> c !in Words(s)[k]
    decreases |s|
  {
    var t := TrimLeft(s);
    if t != [] {
      var w := FirstWord(t);
      var rest := t[|w|..];
      WordsStep(s);
      PiecesAvoid(s, c);
      WordsAvoid(rest, c);
      ConsAvoid(w, Words(rest), c);
    }
  }

  lemma PiecesAvoid(s: string, c: char)
    requires c !in s && TrimLeft(s) != []
    ensures var t := TrimLeft(s);
            c !in FirstWord(t) && c !in t[|FirstWord(t)|..]
  {
    var t := TrimLeft(s);
    var w := FirstWord(t);
    forall i | 0 <= i < |t|
      ensures t[i] != c
    {
      assert t[i] == s[|s| - |t| + i];
    }
    assert t == w + t[|w|..];
  }

  lemma ConsAvoid(w: string, ws: seq<string>, c: char)
    requires c !in w
    requires forall k :: 0 <= k < |ws| ==> c !in ws[k]
    ensures forall k :: 0 <= k < |[w] + ws| ==> c !in ([w] + ws)[k]
  {
    forall k | 0 <= k < |[w] + ws|
      ensures c !in ([w] + ws)[k]
    {
      if k > 0 {
        assert ([w] + ws)[k] == ws[k - 1];
      }
    }
  }

  /** Joining words with `sep` and splitting at `sep` gives the words back,
      provided no word holds the separator itself. */
  lemma {:induction false} SplitJoin(ws: seq<string>, sep: char)
    requires ws != []
    requires forall k :: 0 <= k < |ws| ==> sep !in ws[k]
    ensures SplitOn(Join(ws, sep), sep) == ws
    decreases |ws|
  {
    var w := ws[0];
    if |ws| == 1 {
      IndexOfAbsent(w, sep);
    } else {
      var j := Join(ws[1..], sep);
      SplitStep(w, sep, j);
      SplitJoin(ws[1..], sep);
      assert ws == [w] + ws[1..];
    }
  }

  lemma IndexOfAbsent(w: string, sep: char)
    requires sep !in w
    ensures IndexOf(w, sep) == |w|
  {
  }

  /** Splitting at the first separator peels off the piece before it. */
  lemma SplitStep(w: string, sep: char, j: string)
    requires sep !in w
    ensures SplitOn(w + [sep] + j, sep) == [w] + SplitOn(j, sep)
  {
    var s := w + [sep] + j;
    assert IndexOf(s, sep) == |w| by {
      assert s[|w|] == sep;
      assert forall k :: 0 <= k < |w| ==> s[k] == w[k];
    }
    assert s[..|w|] == w;
    assert s[|w| + 1..] == j;
  }

  /** Joining whitespace-free words with a non-whitespace separator gives a
      whitespace-free string. */
  lemma {:induction false} JoinNoSpace(ws: seq<string>, sep: char)
    requires !IsSpace(sep)
    requires forall k :: 0 <= k < |ws| ==> NoSpace(ws[k])
    ensures NoSpace(Join(ws, sep))
    decreases |ws|
  {
    if |ws| > 1 {
      JoinNoSpace(ws[1..], sep);
    }
  }
}

=== FILE: query.dfy ===
/** Building the listing URL for a search term (`get_url` in gui/gui.py),
    what the site reads back from it, and a corrected URL that escapes the
    characters that would otherwise change the query. */
module Query {
  import opened PyStr

  /** The fixed parts of the query template: at most 100 results, an age
      filter of 1100 days and an empty server filter. */
  const UrlPrefix: string := "https://binsearch.info/?q="
  const UrlSuffix: string := "&max=100&adv_age=1100&server="

  /** The `q` parameter: the term's whitespace-separated words joined by `+`. */
  function SearchQuery(term: string): string {
    Join(Words(term), '+')
  }

  /** `get_url`: the query inside the fixed template, without escaping. */
  function GetUrl(term: string): string {
    UrlPrefix + SearchQuery(term) + UrlSuffix
  }

  /** The URL is the fixed template around a query that holds no whitespace,
      that is empty exactly when the term is blank, and that, for a term
      without `+` of its own, splits at `+` back into the term's words. Since
      words are never empty, such a query has no leading, trailing or doubled
      `+`; and the words themselves keep every non-whitespace character of
      the term, in order (`WordsKeepText`). */
  lemma UrlShape(term: string)
    ensures |GetUrl(term)| >= |UrlPrefix| + |UrlSuffix|
    ensures GetUrl(term)[..|UrlPrefix|] == UrlPrefix
    ensures GetUrl(term)[|GetUrl(term)| - |UrlSuffix|..] == UrlSuffix
    ensures var q := GetUrl(term)[|UrlPrefix|..|GetUrl(term)| - |UrlSuffix|];
            && NoSpace(q)
            && (q == [] <==> AllSpace(term))
            && ('+' !in term && q != [] ==> SplitOn(q, '+') == Words(term))
  {
    var ws := Words(term);
    var q := SearchQuery(term);
    Surround(UrlPrefix, q, UrlSuffix);
    JoinNoSpace(ws, '+');
    if ws != [] {
      JoinNonEmpty(ws, '+');
    }
    if '+' !in term && q != [] {
      WordsAvoid(term, '+');
      SplitJoin(ws, '+');
    }
  }

  /** The parts of `p + q + s` can be read back by position. */
  lemma Surround(p: string, q: string, s: string)
    ensures var u := p + q + s;
            && |u| == |p| + |q| + |s|
            && u[..|p|] == p
            && u[|u| - |s|..] == s
            && u[|p|..|u| - |s|] == q
  {
  }

  lemma JoinNonEmpty(ws: seq<string>, sep: char)
    requires ws != [] && ws[0] != []
    ensures Join(ws, sep) != []
  {
    if |ws| > 1 {
      assert Join(ws, sep)[0] == ws[0][0];
    }
  }

  /** The end of the `q` value inside the rest of a URL: the first `&` starts
      the next parameter and the first `#` starts the fragment. */
  function ParamEnd(s: string): (i: nat)
    ensures i <= |s|
    ensures i < |s| ==> s[i] == '&' || s[i] == '#'
    ensures forall k :: 0 <= k < i ==> s[k] != '&' && s[k] != '#'
  {
    if s == [] || s[0] == '&' || s[0] == '#' then 0 else 1 + ParamEnd(s[1..])
  }

  /** The value of a hexadecimal digit, or -1 for any other character. */
  function HexVal(c: char): (v: int)
    ensures -1 <= v < 16
  {
    if '0' <= c <= '9' then c as int - '0' as int
    else if 'A' <= c <= 'F' then c as int - 'A' as int + 10
    else if 'a' <= c <= 'f' then c as int - 'a' as int + 10
    else -1
  }

  /** Form decoding of a query value, as a web server reads it: `+` is a
      space, `%` and two hex digits is the character with that code, and
      anything else stands for itself. */
  function FormDecode(s: string): string
    decreases |s|
  {
    if s == [] then []
    else if s[0] == '%' && |s| >= 3 && HexVal(s[1]) >= 0 && HexVal(s[2]) >= 0 then
      [(16 * HexVal(s[1]) + HexVal(s[2])) as char] + FormDecode(s[3..])
    else if s[0] == '+' then [' '] + FormDecode(s[1..])
    else [s[0]] + FormDecode(s[1..])
  }

  /** The search text the site receives for `url`: the decoded `q` value. */
  function ServerQuery(url: string): string {
    ValueAfter(url, UrlPrefix)
  }

  /** The decoded value that starts right after `prefix` in `url`, or the
      empty text when `url` does not start with `prefix`. */
  function ValueAfter(url: string, prefix: string): string {
    if |url| >= |prefix| && url[..|prefix|] == prefix then
      var rest := url[|prefix|..];
      FormDecode(rest[..ParamEnd(rest)])
    else []
  }

  lemma ValueAfterPrefix(p: string, x: string)
    ensures ValueAfter(p + x, p) == FormDecode(x[..ParamEnd(x)])
  {
    assert (p + x)[..|p|] == p;
    assert (p + x)[|p|..] == x;
  }

  /** The four characters that change the meaning of a query value. */
  predicate Reserved(c: char) {
    c == '%' || c == '&' || c == '+' || c == '#'
  }

  /** A term with the words `Piers Anthony epub` reaches the site as that
      text; the URL builder aims at the term's words joined by single spaces. */
  function IntendedQuery(term: string): string {
    Join(Words(term), ' ')
  }

  /** `get_url` as written, on a term such as `a&b`: the `&` ends the `q`
      value, and the site searches for `a` alone. */
  lemma AmpersandCutsQuery(a: char, b: char)
    requires !IsSpace(a) && !IsSpace(b) && !Reserved(a)
    ensures ServerQuery(GetUrl([a, '&', b])) == [a]
    ensures IntendedQuery([a, '&', b]) == [a, '&', b]
  {
    var term := [a, '&', b];
    UrlOfWord(term);
    QueryValueCut(term, 1);
    assert term[..1] == [a];
    assert FormDecode([a]) == [a];
  }

  /** `get_url` as written, on a term such as `C++`: each `+` of the term is
      read as a space, and the site searches for `C` and two spaces. */
  lemma PlusBecomesSpace(c: char)
    requires !IsSpace(c) && !Reserved(c)
    ensures ServerQuery(GetUrl([c, '+', '+'])) == [c, ' ', ' ']
    ensures IntendedQuery([c, '+', '+']) == [c, '+', '+']
  {
    UrlOfWord([c, '+', '+']);
    QueryValue([c, '+', '+']);
    DecodePlusPlus(c);
  }

  lemma DecodePlusPlus(c: char)
    requires !Reserved(c)
    ensures FormDecode([c, '+', '+']) == [c, ' ', ' ']
  {
    var s := [c, '+', '+'];
    assert s[1..] == ['+', '+'] && s[1..][1..] == ['+'];
    assert FormDecode(['+']) == [' '];
  }

  /** A term that is a single word is its own query. */
  lemma UrlOfWord(w: string)
    requires w != [] && NoSpace(w)
    ensures GetUrl(w) == UrlPrefix + w + UrlSuffix
    ensures IntendedQuery(w) == w
  {
    WordsOfWord(w);
  }

  /** The `q` value of a query that holds an `&` ends at that `&`. */
  lemma QueryValueCut(q: string, i: int)
    requires 0 <= i < |q| && q[i] == '&'
    requires forall k :: 0 <= k < i ==> q[k] != '&' && q[k] != '#'
    ensures ServerQuery(UrlPrefix + q + UrlSuffix) == FormDecode(q[..i])
  {
    var x := q + UrlSuffix;
    assert UrlPrefix + q + UrlSuffix == UrlPrefix + x;
    ValueAfterPrefix(UrlPrefix, x);
    ParamEndAt(x, i);
    assert x[..i] == q[..i];
  }

  /** One character escaped for a query value: a reserved character as `%`
      and its two hex digits, any other character as itself. */
  function EscapeChar(c: char): string {
    if c == '%' then "%25"
    else if c == '&' then "%26"
    else if c == '+' then "%2B"
    else if c == '#' then "%23"
    else [c]
  }

  function Escape(w: string): string {
    if w == [] then [] else EscapeChar(w[0]) + Escape(w[1..])
  }

  /** An escaped word holds no reserved character other than the `%` of its
      escapes. */
  lemma {:induction false} EscapeOpen(w: string)
    ensures forall k :: 0 <= k < |Escape(w)| ==> !Reserved(Escape(w)[k]) || Escape(w)[k] == '%'
    decreases |w|
  {
    if w != [] {
      var h := EscapeChar(w[0]);
      var t := Escape(w[1..]);
      EscapeOpen(w[1..]);
      assert Escape(w) == h + t;
      forall k | 0 <= k < |h + t|
        ensures !Reserved((h + t)[k]) || (h + t)[k] == '%'
      {
        if k >= |h| {
          assert (h + t)[k] == t[k - |h|];
        }
      }
    }
  }

  function EscapeAll(ws: seq<string>): seq<string> {
    if ws == [] then [] else [Escape(ws[0])] + EscapeAll(ws[1..])
  }

  lemma {:induction false} EscapeAllFacts(ws: seq<string>)
    ensures |EscapeAll(ws)| == |ws|
    ensures forall k :: 0 <= k < |ws| ==> EscapeAll(ws)[k] == Escape(ws[k])
    decreases |ws|
  {
    if ws != [] {
      EscapeAllFacts(ws[1..]);
    }
  }

  /** The query with every word escaped before the words are joined by `+`. */
  function EscapedQuery(term: string): string {
    Join(EscapeAll(Words(term)), '+')
  }

  /** The listing URL with an escaped query: the corrected `get_url`. */
  function GetEscapedUrl(term: string): string {
    UrlPrefix + EscapedQuery(term) + UrlSuffix
  }

  /** The site reads back the escaped character, whatever follows it. */
  lemma DecodeEscapeChar(c: char, rest: string)
    ensures FormDecode(EscapeChar(c) + rest) == [c] + FormDecode(rest)
  {
    var e := EscapeChar(c) + rest;
    if Reserved(c) {
      assert e[3..] == rest;
    } else {
      assert e[1..] == rest;
    }
  }

  lemma {:induction false} DecodeEscape(w: string, rest: string)
    ensures FormDecode(Escape(w) + rest) == w + FormDecode(rest)
    decreases |w|
  {
    if w == [] {
      assert Escape(w) + rest == rest;
    } else {
      var t := Escape(w[1..]);
      calc {
        FormDecode(Escape(w) + rest);
        { assert Escape(w) + rest == EscapeChar(w[0]) + (t + rest); }
        FormDecode(EscapeChar(w[0]) + (t + rest));
        { DecodeEscapeChar(w[0], t + rest); }
        [w[0]] + FormDecode(t + rest);
        { DecodeEscape(w[1..], rest); }
        [w[0]] + (w[1..] + FormDecode(rest));
        { assert w == [w[0]] + w[1..]; }
        w + FormDecode(rest);
      }
    }
  }

  /** Decoding the escaped words joined by `+` gives the words joined by
      spaces. */
  lemma {:induction false} DecodeJoin(ws: seq<string>)
    ensures FormDecode(Join(EscapeAll(ws), '+')) == Join(ws, ' ')
    decreases |ws|
  {
    if |ws| == 1 {
      DecodeEscape(ws[0], []);
      assert Escape(ws[0]) + [] == Escape(ws[0]);
      assert ws[0] + [] == ws[0];
    } else if |ws| > 1 {
      var es := EscapeAll(ws);
      var tail := Join(EscapeAll(ws[1..]), '+');
      assert es[1..] == EscapeAll(ws[1..]);
      assert Join(es, '+') == Escape(ws[0]) + (['+'] + tail);
      DecodeEscape(ws[0], ['+'] + tail);
      assert (['+'] + tail)[1..] == tail;
      DecodeJoin(ws[1..]);
    }
  }

  /** An escaped query holds no `&` and no `#`. */
  lemma {:induction false} EscapedQueryOpen(ws: seq<string>)
    ensures forall k :: 0 <= k < |Join(EscapeAll(ws), '+')| ==>
              Join(EscapeAll(ws), '+')[k] != '&' && Join(EscapeAll(ws), '+')[k] != '#'
    decreases |ws|
  {
    if ws != [] {
      EscapeOpen(ws[0]);
    }
    if |ws| > 1 {
      var es := EscapeAll(ws);
      var tail := Join(EscapeAll(ws[1..]), '+');
      assert es[1..] == EscapeAll(ws[1..]);
      EscapedQueryOpen(ws[1..]);
      var j := Join(es, '+');
      assert j == Escape(ws[0]) + ['+'] + tail;
      forall k | 0 <= k < |j|
        ensures j[k] != '&' && j[k] != '#'
      {
        if k < |Escape(ws[0])| {
          assert j[k] == Escape(ws[0])[k];
        } else if k > |Escape(ws[0])| {
          assert j[k] == tail[k - |Escape(ws[0])| - 1];
        }
      }
    }
  }

  /** The `q` value of a URL is read up to the suffix's leading `&` when the
      query itself holds neither `&` nor `#`. */
  lemma QueryValue(q: string)
    requires forall k :: 0 <= k < |q| ==> q[k] != '&' && q[k] != '#'
    ensures ServerQuery(UrlPrefix + q + UrlSuffix) == FormDecode(q)
  {
    var x := q + UrlSuffix;
    assert UrlPrefix + q + UrlSuffix == UrlPrefix + x;
    ValueAfterPrefix(UrlPrefix, x);
    assert UrlSuffix[0] == '&';
    ParamEndAt(x, |q|);
    assert x[..|q|] == q;
  }

  lemma {:induction false} ParamEndAt(s: string, i: int)
    requires 0 <= i < |s| && (s[i] == '&' || s[i] == '#')
    requires forall k :: 0 <= k < i ==> s[k] != '&' && s[k] != '#'
    ensures ParamEnd(s) == i
    decreases i
  {
    if i > 0 {
      ParamEndAt(s[1..], i - 1);
    }
  }

  /** The corrected URL delivers the term's words, joined by single spaces,
      to the site, whatever characters the term holds. */
  lemma EscapedUrlRoundTrip(term: string)
    ensures ServerQuery(GetEscapedUrl(term)) == IntendedQuery(term)
  {
    var ws := Words(term);
    EscapedQueryOpen(ws);
    QueryValue(EscapedQuery(term));
    DecodeJoin(ws);
  }

  /** A text without reserved characters. */
  predicate Plain(w: string) {
    forall k :: 0 <= k < |w| ==> !Reserved(w[k])
  }

  lemma {:induction false} EscapePlain(w: string)
    requires Plain(w)
    ensures Escape(w) == w
    decreases |w|
  {
    if w != [] {
      EscapePlain(w[1..]);
      assert w == [w[0]] + w[1..];
    }
  }

  lemma {:induction false} EscapeAllPlain(ws: seq<string>)
    requires forall k :: 0 <= k < |ws| ==> Plain(ws[k])
    ensures EscapeAll(ws) == ws
    decreases |ws|
  {
    if ws != [] {
      EscapePlain(ws[0]);
      EscapeAllPlain(ws[1..]);
      assert ws == [ws[0]] + ws[1..];
    }
  }

  /** The words of a plain term are plain. */
  lemma WordsPlain(term: string)
    requires Plain(term)
    ensures forall k :: 0 <= k < |Words(term)| ==> Plain(Words(term)[k])
  {
    WordsAvoid(term, '%');
    WordsAvoid(term, '&');
    WordsAvoid(term, '+');
    WordsAvoid(term, '#');
    forall k | 0 <= k < |Words(term)|
      ensures Plain(Words(term)[k])
    {
      var w := Words(term)[k];
      forall j | 0 <= j < |w|
        ensures !Reserved(w[j])
      {
        assert w[j] in w;
      }
    }
  }

  /** For a term without `%`, `&`, `+` or `#` the corrected URL is the URL
      `get_url` builds, so the fix changes nothing for ordinary terms. */
  lemma EscapeChangesOnlyReserved(term: string)
    requires Plain(term)
    ensures GetEscapedUrl(term) == GetUrl(term)
  {
    WordsPlain(term);
    EscapeAllPlain(Words(term));
  }

  /** `get_url` as written serves a term without `%`, `&`, `+` or `#`: the
      site reads back the term's words joined by single spaces. */
  lemma PlainUrlRoundTrip(term: string)
    requires Plain(term)
    ensures ServerQuery(GetUrl(term)) == IntendedQuery(term)
  {
    EscapeChangesOnlyReserved(term);
    EscapedUrlRoundTrip(term);
  }
}

=== FILE: reconcile.dfy ===
/** The reconciliation pass of `get_url_data` (gui/gui.py): compare a term's
    current listing with the rows stored for it on the identity key
    (Subject, Poster, ItemGroup), insert the listing rows not yet stored, and
    report the stored rows no longer listed. */
module Reconciler {
  import opened PyStr
  import opened Records
  import opened Database

  /** A fetched page once parsed: it had no results table, or it had one
      with these rows, in listing order. */
  datatype Page = NoTable | Table(rows: seq<RemoteRow>)

  /** The listing as compared: each Subject stripped of surrounding
      whitespace, every other column as parsed. */
  function StripSubjects(rows: seq<RemoteRow>): (out: seq<RemoteRow>)
    ensures |out| == |rows|
    ensures forall k :: 0 <= k < |rows| ==> out[k] == rows[k].(subject := Strip(rows[k].subject))
  {
    seq(|rows|, k requires 0 <= k < |rows| => rows[k].(subject := Strip(rows[k].subject)))
  }

  /** Stripping the Subject column of an already stripped listing changes nothing. */
  lemma StripSubjectsIdempotent(rows: seq<RemoteRow>)
    ensures StripSubjects(StripSubjects(rows)) == StripSubjects(rows)
  {
    forall k | 0 <= k < |rows|
      ensures StripSubjects(StripSubjects(rows))[k] == StripSubjects(rows)[k]
    {
      StripIdempotent(rows[k].subject);
    }
  }

  /** Some listing row carries key `k` (the `any(...)` over the listing). */
  function ListingHasKey(rows: seq<RemoteRow>, k: Key): (b: bool)
    ensures b <==> exists r :: r in rows && RowKey(r) == k
  {
    if rows == [] then false
    else RowKey(rows[0]) == k || ListingHasKey(rows[1..], k)
  }

  /** Some stored row carries key `k` (the `any(...)` over the snapshot). */
  function SnapshotHasKey(stored: seq<FoundItem>, k: Key): (b: bool)
    ensures b <==> exists x :: x in stored && ItemKey(x) == k
  {
    if stored == [] then false
    else ItemKey(stored[0]) == k || SnapshotHasKey(stored[1..], k)
  }

  /** The ids of the stored rows whose key no listing row carries, in stored
      order: the deletion list. */
  function Stale(stored: seq<FoundItem>, rows: seq<RemoteRow>): (ids: seq<int>)
    ensures |ids| <= |stored|
    ensures forall id {:trigger id in ids} ::
              id in ids <==> exists x :: x in stored && x.id == id && !ListingHasKey(rows, ItemKey(x))
  {
    if stored == [] then []
    else
      var last := stored[|stored| - 1];
      var init := stored[..|stored| - 1];
      assert forall x :: x in stored <==> x in init || x == last;
      Stale(init, rows) + (if ListingHasKey(rows, ItemKey(last)) then [] else [last.id])
  }

  /** The listing rows whose key no stored row carries, in listing order:
      the delta. */
  function Fresh(rows: seq<RemoteRow>, stored: seq<FoundItem>): (delta: seq<RemoteRow>)
    ensures |delta| <= |rows|
    ensures forall r {:trigger r in delta} :: r in delta <==> r in rows && !SnapshotHasKey(stored, RowKey(r))
  {
    if rows == [] then []
    else
      var last := rows[|rows| - 1];
      var init := rows[..|rows| - 1];
      assert forall r :: r in rows <==> r in init || r == last;
      Fresh(init, stored) + (if SnapshotHasKey(stored, RowKey(last)) then [] else [last])
  }

  /** The FoundList rows that inserting `delta` under `sid` creates when the
      next free id is `start`. */
  function Inserted(delta: seq<RemoteRow>, sid: int, start: int): seq<FoundItem> {
    if delta == [] then []
    else Inserted(delta[..|delta| - 1], sid, start) + [ItemOf(start + |delta| - 1, sid, delta[|delta| - 1])]
  }

  /** The k-th inserted row is the k-th delta row under id `start + k`: every
      inserted row is filed under `sid` with an id at or above `start`. */
  lemma {:induction false} InsertedFacts(delta: seq<RemoteRow>, sid: int, start: int)
    ensures |Inserted(delta, sid, start)| == |delta|
    ensures forall k :: 0 <= k < |delta| ==> Inserted(delta, sid, start)[k] == ItemOf(start + k, sid, delta[k])
    ensures forall x :: x in Inserted(delta, sid, start) ==> x.searchId == sid && x.id >= start
  {
    if delta != [] {
      InsertedFacts(delta[..|delta| - 1], sid, start);
    }
  }

  function ItemKeys(xs: seq<FoundItem>): set<Key> {
    set x | x in xs :: ItemKey(x)
  }

  function RowKeys(rows: seq<RemoteRow>): set<Key> {
    set r | r in rows :: RowKey(r)
  }

  /** FoundList after a whole pass for term `sid` over `rows`, starting from
      `items` with next free id `start`: the delta inserted as the pass goes,
      then the deletion list removed in one batch. */
  function AfterPass(items: seq<FoundItem>, sid: int, rows: seq<RemoteRow>, start: int): seq<FoundItem> {
    var stored := ItemsFor(items, sid);
    Filter(items + Inserted(Fresh(rows, stored), sid, start), SearchIdAndIdIn(sid, Stale(stored, rows)), false)
  }

  /** `get_url_data` from line 109 on, with the page already fetched and
      parsed. Without a results table nothing happens. Otherwise the Subject
      column is stripped, the stored
      rows of `sid` are read once, the stale ids are collected against that
      snapshot, and every listing row unmatched in the snapshot is inserted
      and reported, one at a time. */
  method GetUrlData(store: RecordStore, page: Page, sid: int) returns (delta: seq<RemoteRow>, toDelete: seq<int>)
    requires store.Valid()
    modifies store
    ensures store.Valid()
    ensures store.terms == old(store.terms) && store.nextTermId == old(store.nextTermId)
    ensures page.NoTable? ==>
              delta == [] && toDelete == []
              && store.items == old(store.items) && store.nextItemId == old(store.nextItemId)
    ensures page.Table? ==>
              var snapshot := ItemsFor(old(store.items), sid);
              && toDelete == Stale(snapshot, StripSubjects(page.rows))
              && delta == Fresh(StripSubjects(page.rows), snapshot)
              && store.items == old(store.items) + Inserted(delta, sid, old(store.nextItemId))
              && store.nextItemId == old(store.nextItemId) + |delta|
    ensures old(store.Owned()) && (exists t :: t in store.terms && t.id == sid) ==> store.Owned()
  {
    delta, toDelete := [], [];
    match page {
      case NoTable =>
      case Table(parsed) =>
        var rows := StripSubjects(parsed);
        var snapshot := store.FoundItems(sid);
        toDelete := CollectStale(snapshot, rows);
        delta := InsertUnmatched(store, rows, snapshot, sid);
        if old(store.Owned()) && exists t :: t in store.terms && t.id == sid {
          OwnedAfterInsert(store.terms, old(store.items), delta, sid, old(store.nextItemId));
        }
    }
  }

  lemma OwnedAfterInsert(terms: seq<SearchTerm>, items: seq<FoundItem>, delta: seq<RemoteRow>, sid: int, start: int)
    requires OwnedBy(terms, items) && exists t :: t in terms && t.id == sid
    ensures OwnedBy(terms, items + Inserted(delta, sid, start))
  {
    InsertedFacts(delta, sid, start);
  }

  /** The first loop of the pass: walk the snapshot and collect the id of
      every stored row whose key no listing row carries. */
  method CollectStale(snapshot: seq<FoundItem>, rows: seq<RemoteRow>) returns (toDelete: seq<int>)
    ensures toDelete == Stale(snapshot, rows)
  {
    toDelete := [];
    var i := 0;
    while i < |snapshot|
      invariant 0 <= i <= |snapshot|
      invariant toDelete == Stale(snapshot[..i], rows)
    {
      var x := snapshot[i];
      assert snapshot[..i + 1] == snapshot[..i] + [x];
      if !ListingHasKey(rows, ItemKey(x)) {
        toDelete := toDelete + [x.id];
      }
      i := i + 1;
    }
    assert snapshot[..i] == snapshot;
  }

  /** The second loop of the pass: walk the listing and insert under `sid`
      every row whose key no snapshot row carries, reporting it in the delta. */
  method InsertUnmatched(store: RecordStore, rows: seq<RemoteRow>, snapshot: seq<FoundItem>, sid: int)
    returns (delta: seq<RemoteRow>)
    requires store.Valid()
    modifies store
    ensures store.Valid()
    ensures delta == Fresh(rows, snapshot)
    ensures store.items == old(store.items) + Inserted(delta, sid, old(store.nextItemId))
    ensures store.nextItemId == old(store.nextItemId) + |delta|
    ensures store.terms == old(store.terms) && store.nextTermId == old(store.nextTermId)
  {
    delta := [];
    var j := 0;
    while j < |rows|
      invariant 0 <= j <= |rows|
      invariant store.Valid()
      invariant delta == Fresh(rows[..j], snapshot)
      invariant store.items == old(store.items) + Inserted(delta, sid, old(store.nextItemId))
      invariant store.nextItemId == old(store.nextItemId) + |delta|
      invariant store.terms == old(store.terms) && store.nextTermId == old(store.nextTermId)
    {
      var r := rows[j];
      FreshSnoc(rows, j, snapshot);
      if !SnapshotHasKey(snapshot, RowKey(r)) {
        InsertRow(store, r, sid, old(store.items), old(store.nextItemId), delta);
        delta := delta + [r];
      }
      j := j + 1;
    }
    assert rows[..j] == rows;
  }

  /** One insertion of the second loop: `r` goes in under `sid` with the
      next free id, extending the inserted delta by one row. */
  method InsertRow(store: RecordStore, r: RemoteRow, sid: int,
                   ghost base: seq<FoundItem>, ghost start: int, ghost delta: seq<RemoteRow>)
    requires store.Valid()
    requires store.items == base + Inserted(delta, sid, start)
    requires store.nextItemId == start + |delta|
    modifies store
    ensures store.Valid()
    ensures store.items == base + Inserted(delta + [r], sid, start)
    ensures store.nextItemId == start + |delta| + 1
    ensures store.terms == old(store.terms) && store.nextTermId == old(store.nextTermId)
  {
    ghost var x := FoundItem(store.nextItemId, sid, r.index, r.subject, r.poster, r.group, r.age);
    assert x == ItemOf(start + |delta|, sid, r);
    InsertedSnoc(base, delta, r, sid, start);
    var _ := store.AddFoundItem(sid, r.index, r.subject, r.poster, r.group, r.age);
  }

  lemma FreshSnoc(rows: seq<RemoteRow>, j: int, stored: seq<FoundItem>)
    requires 0 <= j < |rows|
    ensures Fresh(rows[..j + 1], stored)
         == Fresh(rows[..j], stored) + (if SnapshotHasKey(stored, RowKey(rows[j])) then [] else [rows[j]])
  {
    assert rows[..j + 1][..j] == rows[..j];
  }

  lemma InsertedSnoc(base: seq<FoundItem>, delta: seq<RemoteRow>, r: RemoteRow, sid: int, start: int)
    ensures base + Inserted(delta, sid, start) + [ItemOf(start + |delta|, sid, r)]
         == base + Inserted(delta + [r], sid, start)
  {
    assert (delta + [r])[..|delta|] == delta;
  }

  lemma IdsDetermineItems(xs: seq<FoundItem>)
    requires IdsUnique(xs)
    ensures forall x, y :: x in xs && y in xs && x.id == y.id ==> x == y
  {
    forall x, y | x in xs && y in xs && x.id == y.id
      ensures x == y
    {
      var i :| 0 <= i < |xs| && xs[i] == x;
      var j :| 0 <= j < |xs| && xs[j] == y;
      assert !(i < j) && !(j < i);
    }
  }

  lemma {:induction false} FilterNone(xs: seq<FoundItem>, c: Cond, keep: bool)
    requires forall x :: x in xs ==> Holds(c, x) != keep
    ensures Filter(xs, c, keep) == []
  {
    if xs != [] {
      var init := xs[..|xs| - 1];
      assert forall x :: x in init ==> x in xs;
      FilterNone(init, c, keep);
      assert Holds(c, xs[|xs| - 1]) != keep;
    }
  }

  /** The rows a pass leaves under its own term: the stored rows that were
      not listed as stale, in their old order and with their old fields,
      followed by the inserted delta. */
  lemma {:induction false} PassOnTerm(items: seq<FoundItem>, sid: int, rows: seq<RemoteRow>, start: int)
    requires forall x :: x in items ==> x.id < start
    ensures var stored := ItemsFor(items, sid);
            ItemsFor(AfterPass(items, sid, rows, start), sid)
            == Filter(stored, SearchIdAndIdIn(sid, Stale(stored, rows)), false)
               + Inserted(Fresh(rows, stored), sid, start)
  {
    var stored := ItemsFor(items, sid);
    var ins := Inserted(Fresh(rows, stored), sid, start);
    var del := Stale(stored, rows);
    var c := SearchIdAndIdIn(sid, del);
    var s := SearchIdIs(sid);
    InsertedFacts(Fresh(rows, stored), sid, start);
    FilterAll(ins, s, true);
    assert forall id :: id in del ==> id < start;
    FilterAll(ins, c, false);
    calc {
      ItemsFor(AfterPass(items, sid, rows, start), sid);
      Filter(Filter(items + ins, c, false), s, true);
      { FilterCommute(items + ins, c, false, s, true); }
      Filter(Filter(items + ins, s, true), c, false);
      { FilterAppend(items, ins, s, true); }
      Filter(stored + ins, c, false);
      { FilterAppend(stored, ins, c, false); }
      Filter(stored, c, false) + ins;
    }
  }

  /** A pass for term `sid` leaves the rows of every other term as they were. */
  lemma {:induction false} PassLeavesOtherTerms(items: seq<FoundItem>, sid: int, rows: seq<RemoteRow>, start: int, other: int)
    requires other != sid
    ensures ItemsFor(AfterPass(items, sid, rows, start), other) == ItemsFor(items, other)
  {
    var stored := ItemsFor(items, sid);
    var ins := Inserted(Fresh(rows, stored), sid, start);
    var c := SearchIdAndIdIn(sid, Stale(stored, rows));
    var o := SearchIdIs(other);
    InsertedFacts(Fresh(rows, stored), sid, start);
    FilterNone(ins, o, true);
    FilterAll(ItemsFor(items, other), c, false);
    calc {
      ItemsFor(AfterPass(items, sid, rows, start), other);
      Filter(Filter(items + ins, c, false), o, true);
      { FilterCommute(items + ins, c, false, o, true); }
      Filter(Filter(items + ins, o, true), c, false);
      { FilterAppend(items, ins, o, true); }
      Filter(ItemsFor(items, other) + [], c, false);
      { assert ItemsFor(items, other) + [] == ItemsFor(items, other); }
      ItemsFor(items, other);
    }
  }

  /** A pass deletes a stored row of its term exactly when no listing row
      carries its key; a stored row that stays keeps every field, its Age
      included. */
  lemma PassKeepsListedRows(items: seq<FoundItem>, sid: int, rows: seq<RemoteRow>, start: int)
    requires IdsUnique(items)
    requires forall x :: x in items ==> x.id < start
    ensures forall x :: x in ItemsFor(items, sid) ==>
              (x in AfterPass(items, sid, rows, start) <==> ListingHasKey(rows, ItemKey(x)))
  {
    var stored := ItemsFor(items, sid);
    var del := Stale(stored, rows);
    var ins := Inserted(Fresh(rows, stored), sid, start);
    var kept := Filter(stored, SearchIdAndIdIn(sid, del), false);
    var after := AfterPass(items, sid, rows, start);
    FilterKeepsIdsUnique(items, SearchIdIs(sid), true);
    IdsDetermineItems(stored);
    InsertedFacts(Fresh(rows, stored), sid, start);
    PassOnTerm(items, sid, rows, start);
    assert ItemsFor(after, sid) == kept + ins;
    forall x | x in stored
      ensures x in after <==> ListingHasKey(rows, ItemKey(x))
    {
      assert x in after <==> x in kept + ins;
      assert x !in ins;
      assert x.id in del <==> !ListingHasKey(rows, ItemKey(x));
    }
  }

  /** After a pass and its batch deletion, the keys stored for the term are
      exactly the keys of the listing: matched rows stay, unmatched stored
      rows go, unmatched listing rows arrive. */
  lemma PassSettlesKeys(items: seq<FoundItem>, sid: int, rows: seq<RemoteRow>, start: int)
    requires IdsUnique(items)
    requires forall x :: x in items ==> x.id < start
    ensures ItemKeys(ItemsFor(AfterPass(items, sid, rows, start), sid)) == RowKeys(rows)
  {
    PassKeysListed(items, sid, rows, start);
    PassKeysCovered(items, sid, rows, start);
  }

  /** Every key stored for the term after a pass is a listed key. */
  lemma PassKeysListed(items: seq<FoundItem>, sid: int, rows: seq<RemoteRow>, start: int)
    requires IdsUnique(items)
    requires forall x :: x in items ==> x.id < start
    ensures ItemKeys(ItemsFor(AfterPass(items, sid, rows, start), sid)) <= RowKeys(rows)
  {
    var stored := ItemsFor(items, sid);
    var delta := Fresh(rows, stored);
    var ins := Inserted(delta, sid, start);
    var kept := Filter(stored, SearchIdAndIdIn(sid, Stale(stored, rows)), false);
    var mine := ItemsFor(AfterPass(items, sid, rows, start), sid);
    PassOnTerm(items, sid, rows, start);
    PassKeepsListedRows(items, sid, rows, start);
    InsertedFacts(delta, sid, start);
    forall k | k in ItemKeys(mine)
      ensures k in RowKeys(rows)
    {
      var x :| x in mine && ItemKey(x) == k;
      if x in kept {
        assert x in stored;
      } else {
        var j :| 0 <= j < |ins| && ins[j] == x;
        assert delta[j] in delta;
      }
    }
  }

  /** Every listed key is stored for the term after a pass. */
  lemma PassKeysCovered(items: seq<FoundItem>, sid: int, rows: seq<RemoteRow>, start: int)
    requires IdsUnique(items)
    requires forall x :: x in items ==> x.id < start
    ensures RowKeys(rows) <= ItemKeys(ItemsFor(AfterPass(items, sid, rows, start), sid))
  {
    var stored := ItemsFor(items, sid);
    var delta := Fresh(rows, stored);
    var ins := Inserted(delta, sid, start);
    var kept := Filter(stored, SearchIdAndIdIn(sid, Stale(stored, rows)), false);
    var mine := ItemsFor(AfterPass(items, sid, rows, start), sid);
    PassOnTerm(items, sid, rows, start);
    PassKeepsListedRows(items, sid, rows, start);
    InsertedFacts(delta, sid, start);
    forall k | k in RowKeys(rows)
      ensures k in ItemKeys(mine)
    {
      var r :| r in rows && RowKey(r) == k;
      if SnapshotHasKey(stored, k) {
        var x :| x in stored && ItemKey(x) == k;
        assert x in kept;
      } else {
        assert r in delta;
        var j :| 0 <= j < |delta| && delta[j] == r;
        assert ins[j] in mine;
      }
    }
  }

  /** Nothing is fresh when every listing row's key is stored. */
  lemma {:induction false} FreshNone(rows: seq<RemoteRow>, stored: seq<FoundItem>)
    requires forall r :: r in rows ==> SnapshotHasKey(stored, RowKey(r))
    ensures Fresh(rows, stored) == []
  {
    if rows != [] {
      var init := rows[..|rows| - 1];
      assert forall r :: r in init ==> r in rows;
      FreshNone(init, stored);
      assert rows[|rows| - 1] in rows;
    }
  }

  /** Nothing is stale when every stored row's key is listed. */
  lemma {:induction false} StaleNone(stored: seq<FoundItem>, rows: seq<RemoteRow>)
    requires forall x :: x in stored ==> ListingHasKey(rows, ItemKey(x))
    ensures Stale(stored, rows) == []
  {
    if stored != [] {
      var init := stored[..|stored| - 1];
      assert forall x :: x in init ==> x in stored;
      StaleNone(init, rows);
      assert stored[|stored| - 1] in stored;
    }
  }

  /** When the stored keys already equal the listing's keys, a pass finds
      nothing to insert and nothing to delete. */
  lemma SettledPassIsQuiet(stored: seq<FoundItem>, rows: seq<RemoteRow>)
    requires ItemKeys(stored) == RowKeys(rows)
    ensures Fresh(rows, stored) == []
    ensures Stale(stored, rows) == []
  {
    forall r | r in rows
      ensures SnapshotHasKey(stored, RowKey(r))
    {
      assert RowKey(r) in ItemKeys(stored);
    }
    FreshNone(rows, stored);
    forall x | x in stored
      ensures ListingHasKey(rows, ItemKey(x))
    {
      assert ItemKey(x) in RowKeys(rows);
    }
    StaleNone(stored, rows);
  }

  /** Idempotence: a second pass over the same listing, right after the
      first, inserts nothing and deletes nothing. */
  lemma {:induction false} SecondPassIsQuiet(items: seq<FoundItem>, sid: int, rows: seq<RemoteRow>, start: int)
    requires IdsUnique(items)
    requires forall x :: x in items ==> x.id < start
    ensures var mine := ItemsFor(AfterPass(items, sid, rows, start), sid);
            Fresh(rows, mine) == [] && Stale(mine, rows) == []
  {
    PassSettlesKeys(items, sid, rows, start);
    SettledPassIsQuiet(ItemsFor(AfterPass(items, sid, rows, start), sid), rows);
  }

  /** No two stored rows share a key. */
  ghost predicate ItemKeysDistinct(xs: seq<FoundItem>) {
    forall i, j :: 0 <= i < j < |xs| ==> ItemKey(xs[i]) != ItemKey(xs[j])
  }

  /** No two listing rows share a key. */
  ghost predicate RowKeysDistinct(rows: seq<RemoteRow>) {
    forall i, j :: 0 <= i < j < |rows| ==> RowKey(rows[i]) != RowKey(rows[j])
  }

  lemma {:induction false} FilterKeepsKeysDistinct(xs: seq<FoundItem>, c: Cond, keep: bool)
    requires ItemKeysDistinct(xs)
    ensures ItemKeysDistinct(Filter(xs, c, keep))
  {
    if xs != [] {
      var init := xs[..|xs| - 1];
      var last := xs[|xs| - 1];
      FilterKeepsKeysDistinct(init, c, keep);
      var f := Filter(init, c, keep);
      forall x | x in f
        ensures ItemKey(x) != ItemKey(last)
      {
        var k :| 0 <= k < |init| && init[k] == x;
        assert xs[k] == x;
      }
    }
  }

  lemma {:induction false} FreshKeepsKeysDistinct(rows: seq<RemoteRow>, stored: seq<FoundItem>)
    requires RowKeysDistinct(rows)
    ensures RowKeysDistinct(Fresh(rows, stored))
  {
    if rows != [] {
      var init := rows[..|rows| - 1];
      var last := rows[|rows| - 1];
      FreshKeepsKeysDistinct(init, stored);
      var f := Fresh(init, stored);
      forall r | r in f
        ensures RowKey(r) != RowKey(last)
      {
        var k :| 0 <= k < |init| && init[k] == r;
        assert rows[k] == r;
      }
    }
  }

  /** The identity key stays an identity: when the term's stored keys are
      pairwise distinct and so are the listing's keys, no two rows of the
      term share a key after the pass and its batch deletion. */
  lemma PassKeepsKeysDistinct(items: seq<FoundItem>, sid: int, rows: seq<RemoteRow>, start: int)
    requires forall x :: x in items ==> x.id < start
    requires ItemKeysDistinct(ItemsFor(items, sid)) && RowKeysDistinct(rows)
    ensures ItemKeysDistinct(ItemsFor(AfterPass(items, sid, rows, start), sid))
  {
    var stored := ItemsFor(items, sid);
    var delta := Fresh(rows, stored);
    var ins := Inserted(delta, sid, start);
    var kept := Filter(stored, SearchIdAndIdIn(sid, Stale(stored, rows)), false);
    PassOnTerm(items, sid, rows, start);
    InsertedFacts(delta, sid, start);
    FilterKeepsKeysDistinct(stored, SearchIdAndIdIn(sid, Stale(stored, rows)), false);
    FreshKeepsKeysDistinct(rows, stored);
    assert forall k :: 0 <= k < |ins| ==> ItemKey(ins[k]) == RowKey(delta[k]);
    assert ItemKeysDistinct(ins);
    forall x, k | x in kept && 0 <= k < |ins|
      ensures ItemKey(x) != ItemKey(ins[k])
    {
      assert delta[k] in delta;
      assert x in stored;
    }
    ItemKeysDistinctAppend(kept, ins);
  }

  lemma ItemKeysDistinctAppend(a: seq<FoundItem>, b: seq<FoundItem>)
    requires ItemKeysDistinct(a) && ItemKeysDistinct(b)
    requires forall x, k :: x in a && 0 <= k < |b| ==> ItemKey(x) != ItemKey(b[k])
    ensures ItemKeysDistinct(a + b)
  {
    forall i, j | 0 <= i < j < |a + b|
      ensures ItemKey((a + b)[i]) != ItemKey((a + b)[j])
    {
      if j >= |a| && i < |a| {
        assert a[i] in a;
        assert (a + b)[j] == b[j - |a|];
      }
    }
  }

  /** Without distinct listing keys the identity breaks: a listing that
      repeats a key, against a term with nothing stored, stores every copy. */
  lemma RepeatedKeyStoredTwice(a: RemoteRow, b: RemoteRow, sid: int, start: int)
    requires RowKey(a) == RowKey(b)
    ensures ItemsFor(AfterPass([], sid, [a, b], start), sid) == [ItemOf(start, sid, a), ItemOf(start + 1, sid, b)]
    ensures !ItemKeysDistinct(ItemsFor(AfterPass([], sid, [a, b], start), sid))
  {
    var empty: seq<FoundItem> := [];
    PassOnTerm(empty, sid, [a, b], start);
    assert ItemsFor(empty, sid) == [];
    assert Stale(empty, [a, b]) == [];
    assert [a, b][..1] == [a];
    assert Fresh([a], empty) == [a];
    assert Fresh([a, b], empty) == [a, b];
    assert [a, b][..1] == [a];
    assert Inserted([a], sid, start) == [ItemOf(start, sid, a)];
    assert Inserted([a, b], sid, start) == [ItemOf(start, sid, a), ItemOf(start + 1, sid, b)];
    var mine := ItemsFor(AfterPass(empty, sid, [a, b], start), sid);
    assert ItemKey(mine[0]) == ItemKey(mine[1]);
  }
}

=== FILE: records.dfy ===
/** The value records shared by the store and the reconciler: one row of the
    remote listing, one row of the FoundList table, one row of the SearchList
    table, and the identity key used to compare listing rows with stored rows. */
module Records {
  /** A listing row as extracted from the results table (columns ItemIndex,
      Subject, Poster, ItemGroup, Age). */
  datatype RemoteRow = RemoteRow(index: int, subject: string, poster: string, group: string, age: string)

  /** A FoundList row: primary key, owning SearchList id, then the five listing columns. */
  datatype FoundItem = FoundItem(id: int, searchId: int, index: int, subject: string, poster: string, group: string, age: string)

  /** A SearchList row. */
  datatype SearchTerm = SearchTerm(id: int, text: string)

  /** The identity of a listing entry: Subject, Poster and ItemGroup.
      ItemIndex and Age take no part in it. */
  datatype Key = Key(subject: string, poster: string, group: string)

  function RowKey(r: RemoteRow): Key {
    Key(r.subject, r.poster, r.group)
  }

  function ItemKey(x: FoundItem): Key {
    Key(x.subject, x.poster, x.group)
  }

  /** The FoundList row that stores listing row `r` under `searchId` with primary key `id`. */
  function ItemOf(id: int, searchId: int, r: RemoteRow): FoundItem {
    FoundItem(id, searchId, r.index, r.subject, r.poster, r.group, r.age)
  }
}

=== FILE: run.dfy ===
/** The refresh run `retrieve_search_items` (gui/gui.py): one reconciliation
    pass per stored search term, collecting the new rows of each term and one
    error line per term whose page could not be fetched or parsed. */
module Run {
  import opened Wrappers
  import opened Records
  import opened Database
  import opened Query
  import opened Reconciler

  /** Fetching a URL and parsing the page: the page, or the text of the
      exception raised on the way (network failure, unreadable table). */
  type Fetch = string -> Result<Page, string>

  /** The log line of a term whose pass raised `msg`. */
  function ErrorLine(term: string, msg: string): string {
    "Error for '" + term + "': " + msg
  }

  /** What fetching the listing URL `get_url` builds for `t` yields. */
  function Outcome(fetch: Fetch, t: SearchTerm): Result<Page, string> {
    fetch(GetUrl(t.text))
  }

  /** The ids of the stored terms. */
  function Ids(ts: seq<SearchTerm>): set<int> {
    set t | t in ts :: t.id
  }

  /** The error log of a run over the terms `ts`, in term order. */
  function ErrorLog(ts: seq<SearchTerm>, fetch: Fetch): (log: seq<string>)
    ensures |log| <= |ts|
  {
    if ts == [] then []
    else
      var last := ts[|ts| - 1];
      ErrorLog(ts[..|ts| - 1], fetch) + ErrorOf(fetch, last)
  }

  /** The error line the pass of `t` adds: one when its page raised, none
      otherwise. */
  function ErrorOf(fetch: Fetch, t: SearchTerm): seq<string> {
    match Outcome(fetch, t)
    case Err(m) => [ErrorLine(t.text, m)]
    case Ok(_) => []
  }

  /** The rows the pass of term `t` reports, against the rows `items0` stored
      before the run: the unmatched rows of its listing, or nothing when the
      page had no table or could not be had. */
  function PassDelta(items0: seq<FoundItem>, t: SearchTerm, fetch: Fetch): seq<RemoteRow> {
    match Outcome(fetch, t)
    case Ok(page) => PageDelta(items0, page, t.id)
    case Err(_) => []
  }

  /** The rows reported for a fetched page of term `sid`: its unmatched
      listing rows, or nothing without a results table. */
  function PageDelta(items: seq<FoundItem>, page: Page, sid: int): seq<RemoteRow> {
    match page
    case Table(rows) => Fresh(StripSubjects(rows), ItemsFor(items, sid))
    case NoTable => []
  }

  /** FoundList after a fetched page of term `sid` has been reconciled and
      its stale rows deleted. */
  function PageResult(items: seq<FoundItem>, page: Page, sid: int, start: int): seq<FoundItem> {
    match page
    case Table(rows) => AfterPass(items, sid, StripSubjects(rows), start)
    case NoTable => items
  }

  /** The report of a run over the terms `ts`: each term with a non-empty
      delta, mapped to that delta. */
  function Report(items0: seq<FoundItem>, ts: seq<SearchTerm>, fetch: Fetch): map<string, seq<RemoteRow>> {
    if ts == [] then map[]
    else
      var last := ts[|ts| - 1];
      var m := Report(items0, ts[..|ts| - 1], fetch);
      var d := PassDelta(items0, last, fetch);
      if d != [] then m[last.text := d] else m
  }

  /** The FoundList rows after the pass of term `t` that starts from `items`
      with next free id `start`: a pass with a results table inserts and
      deletes; without a table, or when the page raised, nothing changes. */
  function Next(items: seq<FoundItem>, t: SearchTerm, fetch: Fetch, start: int): seq<FoundItem> {
    match Outcome(fetch, t)
    case Ok(page) => PageResult(items, page, t.id, start)
    case Err(_) => items
  }

  /** What a run has left for term `t`, compared with the rows `items0`
      stored before it. With a results table the term holds its old rows
      minus the stale ones, in old order, then its delta inserted under
      consecutive fresh ids; so the stored keys are the listed keys, and an
      old row stays exactly when its key is listed. Otherwise the term's rows
      are as they were. */
  ghost predicate Settled(items0: seq<FoundItem>, items: seq<FoundItem>, t: SearchTerm, fetch: Fetch) {
    match Outcome(fetch, t)
    case Ok(Table(rows)) =>
      var listed := StripSubjects(rows);
      var stored := ItemsFor(items0, t.id);
      && (exists s :: ItemsFor(items, t.id)
                      == Filter(stored, SearchIdAndIdIn(t.id, Stale(stored, listed)), false)
                         + Inserted(Fresh(listed, stored), t.id, s))
      && ItemKeys(ItemsFor(items, t.id)) == RowKeys(listed)
      && (forall x :: x in ItemsFor(items0, t.id) ==>
            (x in ItemsFor(items, t.id) <==> ListingHasKey(listed, ItemKey(x))))
    case _ => ItemsFor(items, t.id) == ItemsFor(items0, t.id)
  }

  /** The state of FoundList after the passes of the first `i` terms: those
      terms settled, the remaining terms untouched, and the rows filed under
      an id no term has untouched as well. */
  ghost predicate Progress(items0: seq<FoundItem>, items: seq<FoundItem>, ts: seq<SearchTerm>, i: int, fetch: Fetch) {
    && 0 <= i <= |ts|
    && (forall k :: 0 <= k < i ==> Settled(items0, items, ts[k], fetch))
    && (forall k :: i <= k < |ts| ==> ItemsFor(items, ts[k].id) == ItemsFor(items0, ts[k].id))
    && (forall sid :: sid !in Ids(ts) ==> ItemsFor(items, sid) == ItemsFor(items0, sid))
  }

  /** `retrieve_search_items` up to the log file and the e-mail: for every
      stored term, in table order, build its URL, look up its id, fetch and
      reconcile, delete the stale rows, and record a non-empty delta under
      the term; a pass that raises adds an error line and changes nothing. */
  method RetrieveSearchItems(store: RecordStore, fetch: Fetch) returns (master: map<string, seq<RemoteRow>>, errors: seq<string>)
    requires store.Valid()
    modifies store
    ensures store.Valid()
    ensures store.terms == old(store.terms) && store.nextTermId == old(store.nextTermId)
    ensures master == Report(old(store.items), store.terms, fetch)
    ensures errors == ErrorLog(store.terms, fetch)
    ensures Progress(old(store.items), store.items, store.terms, |store.terms|, fetch)
    ensures old(store.Owned()) ==> store.Owned()
  {
    master, errors := map[], [];
    var texts := store.AllTexts();
    ghost var ts := store.terms;
    var i := 0;
    while i < |texts|
      invariant 0 <= i <= |texts| == |ts|
      invariant texts == Texts(ts)
      invariant store.Valid() && store.terms == ts && store.nextTermId == old(store.nextTermId)
      invariant master == Report(old(store.items), ts[..i], fetch)
      invariant errors == ErrorLog(ts[..i], fetch)
      invariant Progress(old(store.items), store.items, ts, i, fetch)
      invariant old(store.Owned()) ==> store.Owned()
    {
      var text := texts[i];
      ghost var t := ts[i];
      assert text == t.text && t in store.terms;
      var sid := store.IdOf(text).value;
      assert t == SearchTerm(sid, text);
      ghost var items := store.items;
      ghost var start := store.nextItemId;
      assert ItemsFor(items, sid) == ItemsFor(old(store.items), sid);
      ReportSnoc(old(store.items), ts, i, fetch);
      ErrorLogSnoc(ts, i, fetch);
      var delta, failure := RefreshTerm(store, fetch, text, sid);
      if failure.Some? {
        errors := errors + [ErrorLine(text, failure.value)];
      }
      assert errors == ErrorLog(ts[..i], fetch) + ErrorOf(fetch, t);
      PassDeltaFrame(items, old(store.items), t, fetch);
      if delta != [] {
        master := master[text := delta];
      }
      assert master == Report(old(store.items), ts[..i + 1], fetch);
      RunStep(old(store.items), items, ts, i, fetch, start);
      i := i + 1;
    }
    assert ts[..i] == ts;
  }

  /** The `try` block of the run for one term: fetch and parse its page,
      reconcile, and delete the stale rows. It reports the delta, or the
      failure that stopped it before any change to the store. */
  method RefreshTerm(store: RecordStore, fetch: Fetch, text: string, sid: int)
    returns (delta: seq<RemoteRow>, failure: Option<string>)
    requires store.Valid() && SearchTerm(sid, text) in store.terms
    modifies store
    ensures store.Valid()
    ensures store.terms == old(store.terms) && store.nextTermId == old(store.nextTermId)
    ensures store.items == Next(old(store.items), SearchTerm(sid, text), fetch, old(store.nextItemId))
    ensures delta == PassDelta(old(store.items), SearchTerm(sid, text), fetch)
    ensures failure.Some? <==> Outcome(fetch, SearchTerm(sid, text)).Err?
    ensures failure.Some? ==> failure.value == Outcome(fetch, SearchTerm(sid, text)).error
    ensures old(store.Owned()) ==> store.Owned()
  {
    match Outcome(fetch, SearchTerm(sid, text)) {
      case Err(msg) =>
        delta, failure := [], Some(msg);
      case Ok(page) =>
        delta := ReconcilePage(store, page, sid);
        failure := None;
    }
  }

  /** The reconciliation of one fetched page: the pass of `get_url_data`,
      then the deletion of the stale rows it listed. */
  method ReconcilePage(store: RecordStore, page: Page, sid: int) returns (delta: seq<RemoteRow>)
    requires store.Valid() && exists t :: t in store.terms && t.id == sid
    modifies store
    ensures store.Valid()
    ensures store.terms == old(store.terms) && store.nextTermId == old(store.nextTermId)
    ensures store.items == PageResult(old(store.items), page, sid, old(store.nextItemId))
    ensures delta == PageDelta(old(store.items), page, sid)
    ensures old(store.Owned()) ==> store.Owned()
  {
    var toDelete;
    delta, toDelete := GetUrlData(store, page, sid);
    store.RemoveItemList(sid, toDelete);
    if page.NoTable? {
      FilterAll(old(store.items), SearchIdAndIdIn(sid, []), false);
    }
  }

  /** The delta of a pass depends only on the rows stored for its own term. */
  lemma PassDeltaFrame(items: seq<FoundItem>, items0: seq<FoundItem>, t: SearchTerm, fetch: Fetch)
    requires ItemsFor(items, t.id) == ItemsFor(items0, t.id)
    ensures PassDelta(items, t, fetch) == PassDelta(items0, t, fetch)
  {
  }

  lemma ReportSnoc(items0: seq<FoundItem>, ts: seq<SearchTerm>, i: int, fetch: Fetch)
    requires 0 <= i < |ts|
    ensures var m := Report(items0, ts[..i], fetch);
            var d := PassDelta(items0, ts[i], fetch);
            Report(items0, ts[..i + 1], fetch) == if d != [] then m[ts[i].text := d] else m
  {
    assert ts[..i + 1][..i] == ts[..i];
  }

  lemma ErrorLogSnoc(ts: seq<SearchTerm>, i: int, fetch: Fetch)
    requires 0 <= i < |ts|
    ensures ErrorLog(ts[..i + 1], fetch) == ErrorLog(ts[..i], fetch) + ErrorOf(fetch, ts[i])
  {
    assert ts[..i + 1][..i] == ts[..i];
  }

  /** One pass keeps the run's progress: after the pass of term `i`, the
      first `i + 1` terms are settled and nothing else has moved. */
  lemma RunStep(items0: seq<FoundItem>, items: seq<FoundItem>, ts: seq<SearchTerm>, i: int, fetch: Fetch, start: int)
    requires TermsUnique(ts) && IdsUnique(items)
    requires forall x :: x in items ==> x.id < start
    requires 0 <= i < |ts|
    requires Progress(items0, items, ts, i, fetch)
    ensures Progress(items0, Next(items, ts[i], fetch, start), ts, i + 1, fetch)
  {
    var t := ts[i];
    var after := Next(items, t, fetch, start);
    assert t in ts;
    NextLeavesOthers(items, t, fetch, start);
    NextSettles(items0, items, t, fetch, start);
    forall k | 0 <= k < i
      ensures Settled(items0, after, ts[k], fetch)
    {
      assert ts[k].id != t.id;
      assert ItemsFor(after, ts[k].id) == ItemsFor(items, ts[k].id);
    }
    forall k | i + 1 <= k < |ts|
      ensures ItemsFor(after, ts[k].id) == ItemsFor(items0, ts[k].id)
    {
      assert ts[k].id != t.id;
    }
  }

  /** The pass of term `t` moves no row of another term. */
  lemma NextLeavesOthers(items: seq<FoundItem>, t: SearchTerm, fetch: Fetch, start: int)
    ensures forall sid :: sid != t.id ==> ItemsFor(Next(items, t, fetch, start), sid) == ItemsFor(items, sid)
  {
    if Outcome(fetch, t).Ok? && Outcome(fetch, t).value.Table? {
      var listed := StripSubjects(Outcome(fetch, t).value.rows);
      forall sid | sid != t.id
        ensures ItemsFor(Next(items, t, fetch, start), sid) == ItemsFor(items, sid)
      {
        PassLeavesOtherTerms(items, t.id, listed, start, sid);
      }
    }
  }

  /** The pass of term `t`, run while its rows are still those of `items0`,
      settles it. */
  lemma NextSettles(items0: seq<FoundItem>, items: seq<FoundItem>, t: SearchTerm, fetch: Fetch, start: int)
    requires IdsUnique(items)
    requires forall x :: x in items ==> x.id < start
    requires ItemsFor(items, t.id) == ItemsFor(items0, t.id)
    ensures Settled(items0, Next(items, t, fetch, start), t, fetch)
  {
    if Outcome(fetch, t).Ok? && Outcome(fetch, t).value.Table? {
      var listed := StripSubjects(Outcome(fetch, t).value.rows);
      var after := Next(items, t, fetch, start);
      PassOnTerm(items, t.id, listed, start);
      PassSettlesKeys(items, t.id, listed, start);
      PassKeepsListedRows(items, t.id, listed, start);
      forall x | x in ItemsFor(items0, t.id)
        ensures x in ItemsFor(after, t.id) <==> ListingHasKey(listed, ItemKey(x))
      {
        assert x in ItemsFor(items, t.id);
      }
    }
  }

  /** Every key of `master_dict` is the text of some term of the run. */
  lemma {:induction false} ReportKeysAmong(items0: seq<FoundItem>, ts: seq<SearchTerm>, fetch: Fetch, k: string)
    requires k in Report(items0, ts, fetch)
    ensures exists t :: t in ts && t.text == k
  {
    var init := ts[..|ts| - 1];
    var last := ts[|ts| - 1];
    if k != last.text {
      ReportKeysAmong(items0, init, fetch, k);
      var t :| t in init && t.text == k;
      assert t in ts;
    }
  }

  /** With unique term texts, the text of a term is a key of `master_dict`
      exactly when the pass of that term reported a non-empty delta, and it
      maps to that delta: no later term overwrites it. */
  lemma {:induction false} ReportHas(items0: seq<FoundItem>, ts: seq<SearchTerm>, fetch: Fetch, t: SearchTerm)
    requires TermsUnique(ts) && t in ts
    ensures t.text in Report(items0, ts, fetch) <==> PassDelta(items0, t, fetch) != []
    ensures t.text in Report(items0, ts, fetch) ==> Report(items0, ts, fetch)[t.text] == PassDelta(items0, t, fetch)
  {
    var init := ts[..|ts| - 1];
    var last := ts[|ts| - 1];
    var m := Report(items0, init, fetch);
    var d := PassDelta(items0, last, fetch);
    LastTextNew(ts);
    if t == last {
      if t.text in m {
        ReportKeysAmong(items0, init, fetch, t.text);
      }
      MapUpdate(m, last.text, d, t.text);
    } else {
      assert t in init by { assert t in init + [last]; }
      ReportHas(items0, init, fetch, t);
      MapUpdate(m, last.text, d, t.text);
    }
  }

  /** What a conditional update of `master_dict` does to an entry `k`. */
  lemma MapUpdate(m: map<string, seq<RemoteRow>>, key: string, d: seq<RemoteRow>, k: string)
    ensures var r := if d != [] then m[key := d] else m;
            && (k != key ==> (k in r <==> k in m) && (k in m ==> r[k] == m[k]))
            && (k == key && key !in m ==> (k in r <==> d != []) && (d != [] ==> r[k] == d))
  {
  }

  /** `master_dict` holds a text exactly when some term with that text
      reported a non-empty delta, and maps it to that delta. */
  lemma ReportEntry(items0: seq<FoundItem>, ts: seq<SearchTerm>, fetch: Fetch, k: string)
    requires TermsUnique(ts)
    ensures k in Report(items0, ts, fetch) <==>
              exists t :: t in ts && t.text == k && PassDelta(items0, t, fetch) != []
    ensures k in Report(items0, ts, fetch) ==>
              exists t :: t in ts && t.text == k && Report(items0, ts, fetch)[k] == PassDelta(items0, t, fetch)
  {
    if k in Report(items0, ts, fetch) {
      ReportKeysAmong(items0, ts, fetch, k);
      var t :| t in ts && t.text == k;
      ReportHas(items0, ts, fetch, t);
    } else {
      forall t | t in ts && t.text == k
        ensures PassDelta(items0, t, fetch) == []
      {
        ReportHas(items0, ts, fetch, t);
      }
    }
  }

  /** Unique texts: the last term's text is not among the earlier ones. */
  lemma LastTextNew(ts: seq<SearchTerm>)
    requires TermsUnique(ts) && ts != []
    ensures TermsUnique(ts[..|ts| - 1])
    ensures forall t :: t in ts[..|ts| - 1] ==> t.text != ts[|ts| - 1].text
  {
    var init := ts[..|ts| - 1];
    forall t | t in init
      ensures t.text != ts[|ts| - 1].text
    {
      var j :| 0 <= j < |init| && init[j] == t;
      assert ts[j] == t;
    }
  }

  /** The error log is built term by term: the lines of a run over `a + b`
      are those of `a` followed by those of `b`. */
  lemma {:induction false} ErrorLogAppend(a: seq<SearchTerm>, b: seq<SearchTerm>, fetch: Fetch)
    ensures ErrorLog(a + b, fetch) == ErrorLog(a, fetch) + ErrorLog(b, fetch)
    decreases |b|
  {
    if b == [] {
      assert a + b == a;
    } else {
      var init := b[..|b| - 1];
      assert (a + b)[..|a + b| - 1] == a + init;
      ErrorLogAppend(a, init, fetch);
    }
  }

  /** The log of a single term: one line with its message when its page
      raised, nothing otherwise. */
  lemma ErrorLogOne(t: SearchTerm, fetch: Fetch)
    ensures Outcome(fetch, t).Err? ==> ErrorLog([t], fetch) == [ErrorLine(t.text, Outcome(fetch, t).error)]
    ensures Outcome(fetch, t).Ok? ==> ErrorLog([t], fetch) == []
  {
    assert [t][..0] == [];
  }

  /** Every line of the error log names a failing term and its message, and
      every failing term has its line. */
  lemma {:induction false} ErrorLogLines(ts: seq<SearchTerm>, fetch: Fetch)
    ensures forall e :: e in ErrorLog(ts, fetch) <==>
              exists t :: t in ts && Outcome(fetch, t).Err? && e == ErrorLine(t.text, Outcome(fetch, t).error)
  {
    if ts != [] {
      var init := ts[..|ts| - 1];
      var last := ts[|ts| - 1];
      ErrorLogLines(init, fetch);
      assert ErrorLog(ts, fetch) == ErrorLog(init, fetch) + ErrorOf(fetch, last);
      forall e
        ensures e in ErrorLog(ts, fetch) <==>
                exists t :: t in ts && Outcome(fetch, t).Err? && e == ErrorLine(t.text, Outcome(fetch, t).error)
      {
        if e in ErrorLog(init, fetch) {
          var t :| t in init && Outcome(fetch, t).Err? && e == ErrorLine(t.text, Outcome(fetch, t).error);
          assert t in ts;
        } else if e in ErrorOf(fetch, last) {
          assert last in ts;
        } else {
          assert forall t :: t in ts ==> t in init || t == last;
        }
      }
    }
  }
}

=== FILE: wrappers.dfy ===
/** Optional values and results with an error message, used where the
    source returns None or raises. */
module Wrappers {
  datatype Option<+T> = None | Some(value: T)

  datatype Result<+T, +E> = Ok(value: T) | Err(error: E)
}
